=== FILE: README.md ===
# goethe formatter core in Dafny

Goethe formats JavaPoet-generated Java source with palantir-java-format. It then either returns the text or writes it out: to an annotation-processing filer, or to a directory tree that mirrors the package. On JDK 16 and later the formatter needs some `jdk.compiler` packages exported to unnamed modules. For that case the repository provides two formatter facades and a factory that picks between them. `FormatterFacadeFactory.create()` would choose the in-process facade when the running JVM has those exports, and otherwise a facade that starts a worker JVM with them. Goethe's own entry points (`formatAsString` and both `formatAndEmit` overloads) do not consult the factory: they always format in-process with their own formatter instance, and the worker's main class constructs the in-process facade directly.

This project models that core as pure functions and proves properties about it:

- **`Renderer`** (`renderer.dfy`): the failure message both copies of `generateMessage` build from the engine's diagnostics. There are two outcomes:
  - a report: a header line, then for every diagnostic its message, the quoted source line and a caret line, with the surrounding newlines trimmed;
  - a fallback that repeats the source, used when a diagnostic's line is outside the source.
- **`Text`** (`text.dfy`): Guava `Splitter.on(c)` (empty pieces kept) and `CharMatcher.is(c).trimFrom`, plus a `Join` that the split is proved against.
- **`DirectFacade`** (`direct.dfy`): the in-process strategy. The formatting engine is an opaque function parameter `string -> Formatted(text) | Rejected(diagnostics)`.
- **`Goethe`** (`goethe.dfy`): the `Goethe` entry points:
  - `formatAsString`
  - `className`
  - `getFilePath` (package components become directories)
  - both `formatAndEmit` overloads
  
  The file system and the filer are reduced to outcome parameters.
- **`JavaFormat`** (`javaformat.dfy`): the part of `String.format` the code uses: `%s`, `%d` (written as `Integer.toString` writes it) and `%%`. A missing or mistyped argument makes it throw; any other conversion is outside this model and yields no result.
- **`Utf8`** (`utf8.dfy`): `getBytes(UTF_8)` and `new String(bytes, UTF_8)`, with each maximal ill-formed subpart decoded to U+FFFD.
- **`Permits`** (`permits.dfy`): the process semaphore, seen as a permit counter shared by many callers.
- **`Bootstrap`** (`bootstrap.dfy`): the out-of-process strategy:
  - the export options and the worker's command line;
  - the acquire/release discipline;
  - the worker protocol: source to standard input, formatted text from standard output, and error output on a non-zero exit;
  - the exit-status messages.
  
  The worker is a function parameter from an invocation (command line and stdin bytes) to how the run ended. A worker that follows GoetheMain's protocol is modelled too, with the child's console encoding as a parameter: the parent decodes its output as UTF-8, but the child prints in its platform default.
- **`Factory`** (`factory.dfy`): the strategy choice. `hasExport` accepts both the one-argument form `--add-exports=<m>=ALL-UNNAMED` and the two-argument form `--add-exports <m>=ALL-UNNAMED`.

Exceptions are values: `Result<T, Failure>`, where `Failure` is either `GoetheException(message, cause)` or `IllegalArgument(message)`.

## Model

| member | source | states |
|---|---|---|
| Text.Split | goethe/src/main/java/com/palantir/goethe/DirectFormatterFacade.java:50 | `Splitter.on(c).splitToList`, empty pieces kept; what it promises is stated by the four split rows below, which pin it down together with `Text.Join` (a helper the facades do not call) |
| Text.Repeat | goethe/src/main/java/com/palantir/goethe/DirectFormatterFacade.java:61 | `" ".repeat(n)` (and `Strings.repeat` in the Goethe copy); what the caret line made from it looks like is stated by the Renderer.CaretLine row |
| Text.JoinSplit | goethe/src/main/java/com/palantir/goethe/DirectFormatterFacade.java:50 | joining the pieces of a newline split with newlines gives back the source, so no text is lost or reordered |
| Text.SplitJoin | goethe/src/main/java/com/palantir/goethe/DirectFormatterFacade.java:50 | splitting joined separator-free pieces recovers exactly those pieces (the other direction of the round trip) |
| Text.SplitCount | goethe/src/main/java/com/palantir/goethe/DirectFormatterFacade.java:50 | the split has one more piece than the source has newlines (empty pieces are kept) |
| Text.SplitSeparatorFree | goethe/src/main/java/com/palantir/goethe/DirectFormatterFacade.java:50 | no piece of the split contains the separator |
| Text.Trim | goethe/src/main/java/com/palantir/goethe/DirectFormatterFacade.java:64 | a non-empty trimmed text neither starts nor ends with the trimmed character |
| Text.TrimRemovesOnlyEnds | goethe/src/main/java/com/palantir/goethe/DirectFormatterFacade.java:64 | trimming only removes runs of the character at the two ends |
| Text.TrimAround | goethe/src/main/java/com/palantir/goethe/DirectFormatterFacade.java:64 | trimming a core that does not start or end with the character, padded by runs of it, gives exactly the core |
| Renderer.Render | goethe/src/main/java/com/palantir/goethe/DirectFormatterFacade.java:47-68 | the model of `generateMessage`, shared by both copies: DirectFormatterFacade passes the class name as the header subject, Goethe.java:123-149 passes package + `.` + type. Its properties are stated by the RenderNoDiagnostics, RenderReport, RenderSingle, ReportShape, RenderFallbackIff and RenderShape rows |
| Renderer.CaretLine | goethe/src/main/java/com/palantir/goethe/DirectFormatterFacade.java:61-62 | the caret line has max(0, column-2) spaces followed by a single `^` |
| Renderer.Blocks | goethe/src/main/java/com/palantir/goethe/DirectFormatterFacade.java:53-63 | the diagnostics render without an exception exactly when every line number indexes the split source; a non-empty body ends with a caret and a blank line |
| Renderer.BlocksAppend | goethe/src/main/java/com/palantir/goethe/DirectFormatterFacade.java:53-63 | diagnostics render in input order, each independently of the others |
| Renderer.InRangeByNewlines | goethe/src/main/java/com/palantir/goethe/DirectFormatterFacade.java:50-58 | a diagnostic's line is usable exactly when it is between 1 and the number of newlines plus one |
| Renderer.RenderNoDiagnostics | goethe/src/main/java/com/palantir/goethe/DirectFormatterFacade.java:50-64 | with no diagnostics the message is `Failed to format '<name>'`, without the trailing newline |
| Renderer.RenderReport | goethe/src/main/java/com/palantir/goethe/DirectFormatterFacade.java:50-64 | with in-range diagnostics, trimming removes exactly the final blank line: message plus two newlines is the header plus all blocks |
| Renderer.RenderSingle | goethe/src/main/java/com/palantir/goethe/DirectFormatterFacade.java:50-64 | the exact text for one in-range diagnostic: header, message, the quoted source line, then the caret line |
| Renderer.ReportShape | goethe/src/main/java/com/palantir/goethe/DirectFormatterFacade.java:52-64 | a report starts with the quoted name and ends with `^`, or with the closing quote when there are no diagnostics |
| Renderer.RenderFallbackIff | goethe/src/main/java/com/palantir/goethe/DirectFormatterFacade.java:49-67 | the message is `Failed to format:\n` plus the source if and only if some diagnostic's line is below 1 or past the last line |
| Renderer.RenderShape | goethe/src/main/java/com/palantir/goethe/DirectFormatterFacade.java:47-68 | message generation never fails: it gives either the fallback or a header-prefixed report with no leading or trailing newline |
| DirectFacade.FormatSource | goethe/src/main/java/com/palantir/goethe/DirectFormatterFacade.java:34-40 | succeeds exactly when the engine formats, with the engine's text; otherwise a GoetheException with the rendered message, wrapping the FormatterException |
| DirectFacade.RejectionNamesClass | goethe/src/main/java/com/palantir/goethe/DirectFormatterFacade.java:37-52 | a rejection message names the class in its header, or is the fallback |
| Goethe.ClassName | goethe/src/main/java/com/palantir/goethe/Goethe.java:151-153 | the bare type name in the default package, otherwise package, dot, type |
| Goethe.ReportSubject | goethe/src/main/java/com/palantir/goethe/Goethe.java:128-133 | the header subject of Goethe's own `generateMessage`, package and type always joined by `.`; the Goethe.RejectionHeader and Goethe.DefaultPackageSubject rows state its effect |
| Goethe.FormatAsString | goethe/src/main/java/com/palantir/goethe/Goethe.java:59-69 | succeeds exactly when the engine formats the JavaPoet text; otherwise a GoetheException wrapping the FormatterException whose message is `generateMessage` under the package-dot-type subject |
| Goethe.RejectionHeader | goethe/src/main/java/com/palantir/goethe/Goethe.java:128-133 | a rejection message is the fallback or starts with `Failed to format '<package>.<Type>'`, so `'.Type'` in the default package |
| Goethe.FormatAsStringMatchesFacade | goethe/src/main/java/com/palantir/goethe/Goethe.java:123-149 | for a file in a named package, Goethe's own renderer copy gives the same result as the in-process facade under the class name |
| Goethe.DefaultPackageSubject | goethe/src/main/java/com/palantir/goethe/Goethe.java:128-133 | in the default package Goethe's header names `.<Type>`, which differs from the class name |
| Goethe.EmitToFiler | goethe/src/main/java/com/palantir/goethe/Goethe.java:78-98 | a formatting failure propagates unchanged; otherwise the formatted text is created under the class name, or a write failure becomes "Failed to write formatted code to the filer" |
| Goethe.Resolve | goethe/src/main/java/com/palantir/goethe/Goethe.java:168 | `Path.resolve`, where an empty component leaves the path unchanged; the Goethe.ResolveAll row states what the loop of resolves gives |
| Goethe.ResolveAll | goethe/src/main/java/com/palantir/goethe/Goethe.java:165-169 | resolving the components appends the non-empty ones in order (resolving "" changes nothing) |
| Goethe.GetFilePath | goethe/src/main/java/com/palantir/goethe/Goethe.java:160-174 | throws IllegalArgument exactly when the base exists and is not a directory; otherwise the path is base, the package components, then `<Type>.java` |
| Goethe.DefaultPackagePath | goethe/src/main/java/com/palantir/goethe/Goethe.java:165-173 | in the default package, for every accepted base (one that does not exist or is a directory), the file sits directly in the base directory |
| Goethe.PackagePath | goethe/src/main/java/com/palantir/goethe/Goethe.java:160-174 | for a well-formed package, the path below the base, joined with dots, spells `<className>.java` |
| Goethe.EmitToDirectory | goethe/src/main/java/com/palantir/goethe/Goethe.java:107-116 | a format failure or the IllegalArgument propagates unchanged; an I/O failure becomes "Failed to write formatted sources"; on success it writes the formatted text to the path `getFilePath` computes |
| JavaFormat.Format | goethe/src/main/java/com/palantir/goethe/BootstrappingFormatterFacade.java:77-79 | `String.format` for `%s`, `%d` and `%%`; `None` where Java throws. What it gives is stated by the FormatIntTwoStrings, ExportArgFormats and ExitMessageFormats rows |
| JavaFormat.Decimal | goethe/src/main/java/com/palantir/goethe/BootstrappingFormatterFacade.java:77-79 | the `%d` rendering of the exit status (`Integer.toString`); the JavaFormat.DecimalRoundTrip row states that it reads back |
| JavaFormat.DecimalRoundTrip | goethe/src/main/java/com/palantir/goethe/BootstrappingFormatterFacade.java:77-79 | the `%d` rendering of the exit status parses back to the status, negatives included |
| JavaFormat.FormatIntTwoStrings | goethe/src/main/java/com/palantir/goethe/BootstrappingFormatterFacade.java:77-79 | a template with a `%d` and two `%s` conversions formats to the literal parts interleaved with the rendered arguments |
| Utf8.Encode | goethe/src/main/java/com/palantir/goethe/BootstrappingFormatterFacade.java:69 | `getBytes(UTF_8)` for the source written to the worker (and for the stream-failure note, line 96); the Utf8.DecodeEncode row states that decoding reads it back |
| Utf8.Decode | goethe/src/main/java/com/palantir/goethe/BootstrappingFormatterFacade.java:81 | `new String(bytes, UTF_8)` for the worker's stdout (and stderr, line 101); the DecodeEncode and DecodeThenMessage rows state what it reads back |
| Utf8.DecodeEncode | goethe/src/main/java/com/palantir/goethe/BootstrappingFormatterFacade.java:69-81 | decoding the UTF-8 bytes of any text gives back the text, so the worker receives the source unchanged |
| Utf8.DecodeThenMessage | goethe/src/main/java/com/palantir/goethe/BootstrappingFormatterFacade.java:93-101 | bytes already read, followed by an ASCII-led note, decode to the decoded bytes followed by the note |
| Bootstrap.ExportArgFormats | goethe/src/main/java/com/palantir/goethe/BootstrappingFormatterFacade.java:43-45 | formatting the export template never throws and gives `--add-exports=<m>=ALL-UNNAMED` |
| Bootstrap.ExportArgs | goethe/src/main/java/com/palantir/goethe/BootstrappingFormatterFacade.java:43-45 | the mapping keeps length and order, one option per required export |
| Bootstrap.ExportsFormatted | goethe/src/main/java/com/palantir/goethe/BootstrappingFormatterFacade.java:36-45 | every export option is the template formatted with the matching required export |
| Bootstrap.CommandLine | goethe/src/main/java/com/palantir/goethe/BootstrappingFormatterFacade.java:56-66 | the process arguments; their layout is stated by the CommandLineLayout row |
| Bootstrap.CommandLineLayout | goethe/src/main/java/com/palantir/goethe/BootstrappingFormatterFacade.java:56-66 | the command line is the java executable, every export in order, `-cp <classpath>`, the main class, and the class name last |
| Bootstrap.ErrorOutput | goethe/src/main/java/com/palantir/goethe/BootstrappingFormatterFacade.java:89-102 | `getErrorOutput`: a complete stream is decoded as UTF-8; a broken one is stated by the ErrorOutputDegrades row |
| Bootstrap.ErrorOutputDegrades | goethe/src/main/java/com/palantir/goethe/BootstrappingFormatterFacade.java:89-102 | a failed error-stream read keeps the text read so far and appends `<failed to read process stream: e>` |
| Bootstrap.ExitMessage | goethe/src/main/java/com/palantir/goethe/BootstrappingFormatterFacade.java:77-79 | the non-zero-exit message spelt out; the Bootstrap.ExitMessageFormats row states that the template formats to it |
| Bootstrap.ExitMessageFormats | goethe/src/main/java/com/palantir/goethe/BootstrappingFormatterFacade.java:75-80 | the non-zero-exit template never throws and names the status, the class and the error output |
| Bootstrap.Outcome | goethe/src/main/java/com/palantir/goethe/BootstrappingFormatterFacade.java:68-83 | what a finished or failed worker run yields; stated case by case by the FormatSourceResult row |
| Bootstrap.FormatSource | goethe/src/main/java/com/palantir/goethe/BootstrappingFormatterFacade.java:47-87 | interruption while acquiring gives no permit operations and no worker; otherwise exactly one acquire and one release. The jar-location failure is wrapped; the worker gets the command line, and its stdin decodes to the source |
| Bootstrap.FormatSourceResult | goethe/src/main/java/com/palantir/goethe/BootstrappingFormatterFacade.java:68-83 | exit 0 gives the decoded stdout; a non-zero exit gives the exit message; a failed start, write, read or wait gives "Failed to bootstrap jdk" with its cause |
| Bootstrap.FormatSourceKeepsPermits | goethe/src/main/java/com/palantir/goethe/BootstrappingFormatterFacade.java:49-86 | every call, whatever its outcome, leaves the semaphore as it found it |
| Bootstrap.ConformingWorker | goethe/src/main/java/com/palantir/goethe/GoetheMain.java:34-40 | GoetheMain's protocol: decode stdin as UTF-8, format in process, print the result (exit 0) or the message and a newline to stderr (exit 1); what it prints goes through the child's console encoding, a parameter, since the command line does not choose one |
| Bootstrap.ConformingOutcome | goethe/src/main/java/com/palantir/goethe/GoetheMain.java:34-40 | a worker that follows the main class's protocol on a console the parent reads back as UTF-8 gives the in-process result, or the exit-1 message quoting the in-process failure |
| Bootstrap.Utf8ConsoleReadsBack | goethe/src/main/java/com/palantir/goethe/BootstrappingFormatterFacade.java:81 | a UTF-8 console is one the parent's UTF-8 decoding reads back unchanged |
| Bootstrap.StrategiesAgree | goethe/src/main/java/com/palantir/goethe/BootstrappingFormatterFacade.java:47-87 | with such a worker on a console read back as UTF-8 both strategies return the same formatted text; on rejection the bootstrapped message embeds the direct one |
| Bootstrap.AsciiConsoleDiverges | goethe/src/main/java/com/palantir/goethe/GoetheMain.java:37 | on a US-ASCII console (a C/POSIX locale) the strategies disagree whenever the formatted text has a non-ASCII character: the bootstrapped text has `?` in its place |
| Bootstrap.AccentedSourceDiverges | goethe/src/main/java/com/palantir/goethe/GoetheMain.java:37 | the source `é` through the identity formatter: `é` in process, `?` through a worker on a US-ASCII console |
| Permits.Initial | goethe/src/main/java/com/palantir/goethe/BootstrappingFormatterFacade.java:33-34 | the semaphore starts with all twice-the-processors permits free |
| Permits.Apply | goethe/src/main/java/com/palantir/goethe/BootstrappingFormatterFacade.java:49-86 | an acquire is possible exactly when a permit is free and the caller holds none (each call acquires once); a release exactly when the caller holds one |
| Permits.ReplayKeepsValid | goethe/src/main/java/com/palantir/goethe/BootstrappingFormatterFacade.java:33-34 | under any interleaving of callers the free permits stay within [0, max], and each permit is free or held |
| Permits.AllReleasedMeansFull | goethe/src/main/java/com/palantir/goethe/BootstrappingFormatterFacade.java:33-34 | once no caller holds a permit, all permits are free again |
| Permits.BalancedCallRestores | goethe/src/main/java/com/palantir/goethe/BootstrappingFormatterFacade.java:49-86 | one acquire followed by one release by the same caller restores the pool |
| Factory.ScanFrom | goethe/src/main/java/com/palantir/goethe/FormatterFacadeFactory.java:44-55 | the loop returns true exactly when some argument from the index on grants the export |
| Factory.HasExport | goethe/src/main/java/com/palantir/goethe/FormatterFacadeFactory.java:41-56 | true exactly when some argument is the one-argument form, or is the value right after `--add-exports` |
| Factory.AllGranted | goethe/src/main/java/com/palantir/goethe/FormatterFacadeFactory.java:36-37 | `allMatch` holds exactly when every required export is granted |
| Factory.CurrentJvmHasExportArgs | goethe/src/main/java/com/palantir/goethe/FormatterFacadeFactory.java:33-38 | true exactly when the JVM's input arguments grant every required export |
| Factory.Create | goethe/src/main/java/com/palantir/goethe/FormatterFacadeFactory.java:26-31 | the in-process strategy exactly when the feature version is below 16 or every export is granted; otherwise the bootstrapping one |
| Factory.CompoundFormGrants | goethe/src/main/java/com/palantir/goethe/FormatterFacadeFactory.java:42-48 | the one-argument form anywhere grants the export |
| Factory.PairFormGrants | goethe/src/main/java/com/palantir/goethe/FormatterFacadeFactory.java:43-53 | `--add-exports` directly followed by `<m>=ALL-UNNAMED` grants the export |
| Factory.ValueAloneDoesNotGrant | goethe/src/main/java/com/palantir/goethe/FormatterFacadeFactory.java:49-53 | the value on its own, or a pair in the wrong order, does not grant it |
| Factory.GrantedMonotone | goethe/src/main/java/com/palantir/goethe/FormatterFacadeFactory.java:44-55 | adding arguments before or after never withdraws a granted export |
| Factory.ExampleNoExport | goethe/src/test/java/com/palantir/goethe/FormatterFacadeFactoryTest.java:26-37 | no arguments, or unrelated ones, do not grant `javac.file` |
| Factory.ExampleCompound | goethe/src/test/java/com/palantir/goethe/FormatterFacadeFactoryTest.java:39-45 | the one-argument `javac.file` export is found |
| Factory.ExamplePair | goethe/src/test/java/com/palantir/goethe/FormatterFacadeFactoryTest.java:47-53 | the two-argument `javac.file` export is found |
| Factory.ExampleWrongOrder | goethe/src/test/java/com/palantir/goethe/FormatterFacadeFactoryTest.java:55-61 | the two-argument form in the wrong order is not accepted |
| Factory.WorkerHasExports | goethe/src/main/java/com/palantir/goethe/FormatterFacadeFactory.java:33-38 | a JVM whose arguments contain the worker's export options passes the check, so `create` would choose the in-process strategy on any version (the worker itself constructs it directly, GoetheMain.java:37) |

## Left out

- Wiring: none of the modelled source files calls `FormatterFacadeFactory.create()`, and only GoetheBootstrapTest constructs the bootstrapping facade. The facades and the factory are modelled as standalone components; the `Goethe` module formats through the engine parameter directly, as the entry points do.
- The formatting engine (palantir-java-format) and JavaPoet's `writeTo` are outside this model. The engine is a function parameter. A JavaPoet file is its package name, its type name and the text `writeTo` produces.
- `formatAsString`'s `IOException` branch ("Formatting failed") is not modelled. Appending to a `StringBuilder` does not throw it.
- The filer's originating elements, and the deletion of a half-created filer file, are not modelled. The deletion does not change the exception that is thrown.
- Process lifecycle: the worker is a function from an invocation to how its run ended. Concurrency, blocking on full pipes and leftover child processes are not modelled. The code writes stdin, reads stdout, waits, and only then reads stderr. It never destroys the child. The model follows this order.
- The java executable path (`java.home`) and the jar location (protection domain, code source, URI) are parameters. The location is a result that may carry the `URISyntaxException` text.
- `Runtime.version().feature()`, the processor count and the JVM's input arguments are parameters.
- GoetheMain is modelled only as the protocol a conforming worker follows (`Bootstrap.ConformingWorker`). Its argument-count check is not modelled. It ends the error output with `println`, which the model takes to be `\n`.
- Bootstrap.ConformingOutcome: holds only for a child whose console encoding the parent reads back as UTF-8 (see the next line).
- Bootstrap.StrategiesAgree: holds only for a child whose console encoding the parent reads back as UTF-8. GoetheMain prints with `System.out.print` and `System.err.println` in the child JVM's default console encoding, and the command line sets no `stdout.encoding`, `stderr.encoding` or `file.encoding`, so nothing ensures this; `Bootstrap.AsciiConsoleDiverges` shows the difference under US-ASCII.
- Bootstrap.FormatSource: the semaphore is taken once per call. Blocking while no permit is free is what `Permits.Apply` returning `None` stands for; there is no scheduler model.
- Renderer.CaretLine: `column - 2` is computed with unbounded integers. It does not model 32-bit wrap-around for a column within 2 of `Integer.MIN_VALUE`, a value the engine does not report.
- Utf8.Decode approximates the JDK decoder. It replaces each maximal ill-formed subpart with U+FFFD. The JDK's exact replacement choices for malformed worker output are not modelled, and neither are lone surrogates in Java strings: Dafny characters are Unicode scalar values.
- JavaFormat.Format models only `%s`, `%d` and `%%`. `%d` is assumed to be locale-independent ASCII digits.
- Goethe.GetFilePath: directory creation is folded into the I/O outcome of `EmitToDirectory`. A path is a base plus name elements. Separators or absolute components inside a package component are not interpreted. The base is rendered in the "not a directory" message as base and names joined by `/`.

=== FILE: bootstrap.dfy ===
/** The out-of-process strategy (BootstrappingFormatterFacade): under a
    process permit, start a fresh JVM with the compiler exports opened, write
    the source to its standard input, read the formatted text from its
    standard output, and turn a non-zero exit into a failure that carries its
    standard error. The child process is a function parameter. */
module Bootstrap {
  import opened Wrappers
  import Text
  import JavaFormat
  import Utf8
  import Permits
  import Renderer
  import DirectFacade

  /** The compiler packages the engine needs opened to unnamed modules. */
  const REQUIRED_EXPORTS: seq<string> := [
    "jdk.compiler/com.sun.tools.javac.api",
    "jdk.compiler/com.sun.tools.javac.file",
    "jdk.compiler/com.sun.tools.javac.parser",
    "jdk.compiler/com.sun.tools.javac.tree",
    "jdk.compiler/com.sun.tools.javac.util"
  ]

  const EXPORT_TEMPLATE := "--add-exports=%s=ALL-UNNAMED"

  /** `String.format("--add-exports=%s=ALL-UNNAMED", value)`, spelt out; the
      lemma below shows it is what the template formats to. */
  function ExportArg(value: string): string {
    "--add-exports=" + value + "=ALL-UNNAMED"
  }

  /** Formatting the export template with a module/package pair never throws
      and gives `ExportArg`. */
  lemma ExportArgFormats(value: string)
    ensures JavaFormat.Format(EXPORT_TEMPLATE, [JavaFormat.Str(value)]) == Some(ExportArg(value))
  {
    ExportTemplateParts();
    JavaFormat.FormatOneString("--add-exports=", "=ALL-UNNAMED", JavaFormat.Str(value));
    assert "--add-exports=" + (value + "=ALL-UNNAMED") == "--add-exports=" + value + "=ALL-UNNAMED";
  }

  /** The export template is its literal parts around one `%s`. */
  lemma ExportTemplateParts()
    ensures EXPORT_TEMPLATE == "--add-exports=" + ("%s" + "=ALL-UNNAMED")
    ensures '%' !in "--add-exports=" && '%' !in "=ALL-UNNAMED"
  {
  }

  /** `REQUIRED_EXPORTS.stream().map(...)`. */
  function ExportArgs(required: seq<string>): (r: seq<string>)
    ensures |r| == |required|
    ensures forall i :: 0 <= i < |r| ==> r[i] == "--add-exports=" + required[i] + "=ALL-UNNAMED"
  {
    if |required| == 0 then [] else [ExportArg(required[0])] + ExportArgs(required[1..])
  }

  const EXPORTS: seq<string> := ExportArgs(REQUIRED_EXPORTS)

  /** Every export option is the template formatted with the matching
      required export, in the same order. */
  lemma ExportsFormatted()
    ensures |EXPORTS| == |REQUIRED_EXPORTS|
    ensures forall i :: 0 <= i < |EXPORTS| ==>
      JavaFormat.Format(EXPORT_TEMPLATE, [JavaFormat.Str(REQUIRED_EXPORTS[i])]) == Some(EXPORTS[i])
  {
    forall i | 0 <= i < |EXPORTS|
      ensures JavaFormat.Format(EXPORT_TEMPLATE, [JavaFormat.Str(REQUIRED_EXPORTS[i])]) == Some(EXPORTS[i])
    {
      ExportArgFormats(REQUIRED_EXPORTS[i]);
    }
  }

  /** `GoetheMain.class.getName()`. */
  const MAIN_CLASS := "com.palantir.goethe.GoetheMain"

  /** The worker's command line. */
  function CommandLine(javaExecutable: string, classpath: string, className: string): seq<string> {
    [javaExecutable] + EXPORTS + ["-cp", classpath, MAIN_CLASS, className]
  }

  /** The order of the command line: the java executable, every export in
      order, the class path option, the main class, and the class name last. */
  lemma CommandLineLayout(javaExecutable: string, classpath: string, className: string)
    ensures var cmd := CommandLine(javaExecutable, classpath, className);
      var n := |REQUIRED_EXPORTS|;
      |cmd| == n + 5
      && cmd[0] == javaExecutable
      && (forall i :: 0 <= i < n ==> cmd[1 + i] == "--add-exports=" + REQUIRED_EXPORTS[i] + "=ALL-UNNAMED")
      && cmd[n + 1] == "-cp" && cmd[n + 2] == classpath
      && cmd[n + 3] == MAIN_CLASS && cmd[|cmd| - 1] == className
  {
    var cmd := CommandLine(javaExecutable, classpath, className);
    forall i | 0 <= i < |REQUIRED_EXPORTS|
      ensures cmd[1 + i] == "--add-exports=" + REQUIRED_EXPORTS[i] + "=ALL-UNNAMED"
    {
      assert cmd[1 + i] == EXPORTS[i];
    }
  }

  /** The class to format is the last argument the child gets. */
  lemma CommandLineNamesClass(javaExecutable: string, classpath: string, className: string)
    ensures var cmd := CommandLine(javaExecutable, classpath, className);
      |cmd| > 0 && cmd[|cmd| - 1] == className
  {
  }

  // ---------------------------------------------------------------------
  // The child process.

  /** What the child is given: its command line and its standard input. */
  datatype Invocation = Invocation(command: seq<string>, stdin: seq<Utf8.byte>)

  /** Reading a stream to its end, or failing part-way with an exception. */
  datatype StreamRead = Complete(bytes: seq<Utf8.byte>) | Broken(bytesRead: seq<Utf8.byte>, error: string)

  /** How one run of the child ends, at the first step that throws. */
  datatype WorkerRun =
    | StartFailed(cause: string)        // `ProcessBuilder.start` throws IOException
    | WriteFailed(cause: string)        // writing or closing standard input throws IOException
    | ReadFailed(cause: string)         // reading standard output throws IOException
    | WaitInterrupted(cause: string)    // `waitFor` throws InterruptedException
    | Exited(status: int, stdout: seq<Utf8.byte>, stderr: StreamRead)

  /** The child process, as seen from the parent. */
  type Worker = Invocation -> WorkerRun

  /** How the wait for a permit ends. */
  datatype AcquireOutcome = Granted | Interrupted(cause: string)

  /** One call: the permit operations it performed, the invocation it started
      (if it got that far) and its result. */
  datatype Call = Call(permits: seq<Permits.PermitOp>, invocation: Option<Invocation>, result: Result<string, Failure>)

  const STREAM_FAILURE_START := "<failed to read process stream: "

  /** `getErrorOutput(process)`: never throws; a failed read keeps what was
      read and appends a note naming the exception. */
  function ErrorOutput(stderr: StreamRead): string {
    match stderr
    case Complete(b) => Utf8.Decode(b)
    case Broken(read, e) => Utf8.Decode(read + Utf8.Encode(STREAM_FAILURE_START + e + ">"))
  }

  /** A broken error stream yields the text read so far followed by the note. */
  lemma ErrorOutputDegrades(read: seq<Utf8.byte>, e: string)
    ensures ErrorOutput(Broken(read, e)) == Utf8.Decode(read) + "<failed to read process stream: " + e + ">"
  {
    assert STREAM_FAILURE_START[0] == '<';
    DecodeThenNote(read, STREAM_FAILURE_START, e);
  }

  lemma DecodeThenNote(read: seq<Utf8.byte>, start: string, e: string)
    requires |start| > 0 && start[0] as int < 0x80
    ensures Utf8.Decode(read + Utf8.Encode(start + e + ">")) == Utf8.Decode(read) + start + e + ">"
  {
    var note := start + e + ">";
    assert note[0] == start[0];
    Utf8.DecodeThenMessage(read, note);
  }

  const EXIT_TEMPLATE := "Formatter exited non-zero (%d) formatting class %s:\n%s"

  /** The message of a non-zero exit, spelt out; the lemma below shows it is
      what the template formats to. */
  function ExitMessage(status: int, className: string, errorText: string): string {
    "Formatter exited non-zero (" + JavaFormat.Decimal(status) + ") formatting class " + className + ":\n" + errorText
  }

  /** Formatting the exit template with the status, the class name and the
      error output never throws and gives `ExitMessage`; the status is written
      the way `Integer.toString` writes it. */
  lemma ExitMessageFormats(status: int, className: string, errorText: string)
    ensures JavaFormat.Format(EXIT_TEMPLATE, [JavaFormat.Int(status), JavaFormat.Str(className), JavaFormat.Str(errorText)])
      == Some(ExitMessage(status, className, errorText))
  {
    assert EXIT_TEMPLATE == "Formatter exited non-zero (" + ("%d" + (") formatting class " + ("%s" + (":\n" + ("%s" + "")))));
    JavaFormat.FormatIntTwoStrings("Formatter exited non-zero (", ") formatting class ", ":\n", "", status,
      JavaFormat.Str(className), JavaFormat.Str(errorText));
    Text.AppendAssoc6("Formatter exited non-zero (", JavaFormat.Decimal(status), ") formatting class ", className, ":\n", errorText);
  }

  /** `"Failed to locate the jar providing " + Goethe.class`, thrown when the
      location of the jar cannot be turned into a URI. */
  const LOCATE_FAILURE := "Failed to locate the jar providing class com.palantir.goethe.Goethe"

  /** What the protocol yields once the child has been started. */
  function Outcome(run: WorkerRun, className: string): Result<string, Failure> {
    match run
    case StartFailed(cause) => Failure(GoetheException("Failed to bootstrap jdk", Some(cause)))
    case WriteFailed(cause) => Failure(GoetheException("Failed to bootstrap jdk", Some(cause)))
    case ReadFailed(cause) => Failure(GoetheException("Failed to bootstrap jdk", Some(cause)))
    case WaitInterrupted(cause) => Failure(GoetheException("Failed to bootstrap jdk", Some(cause)))
    case Exited(status, out, err) =>
      if status != 0 then Failure(GoetheException(ExitMessage(status, className, ErrorOutput(err)), None))
      else Success(Utf8.Decode(out))
  }

  /** `BootstrappingFormatterFacade.formatSource(className, source)`.
      `javaExecutable` is `$java.home/bin/java`; `classpath` is the location of
      the jar holding Goethe, or the `URISyntaxException` met while finding it. */
  function FormatSource(
    acquire: AcquireOutcome, javaExecutable: string, classpath: Result<string, string>,
    worker: Worker, className: string, source: string): (c: Call)
    ensures acquire.Interrupted? ==>
      c == Call([], None, Failure(GoetheException("Failed to acquire process semaphore", Some(acquire.cause))))
    ensures acquire.Granted? ==> c.permits == [Permits.Acquire, Permits.Release]
    ensures c.invocation.Some? <==> acquire.Granted? && classpath.Success?
    ensures c.invocation.Some? ==>
      c.invocation.value.command == CommandLine(javaExecutable, classpath.value, className)
      && Utf8.Decode(c.invocation.value.stdin) == source
    ensures c.invocation.Some? ==> c.result == Outcome(worker(c.invocation.value), className)
    ensures acquire.Granted? && classpath.Failure? ==>
      c.result == Failure(GoetheException(LOCATE_FAILURE, Some(classpath.error)))
  {
    match acquire
    case Interrupted(cause) =>
      Call([], None, Failure(GoetheException("Failed to acquire process semaphore", Some(cause))))
    case Granted =>
      match classpath
      case Failure(e) => Call([Permits.Acquire, Permits.Release], None, Failure(GoetheException(LOCATE_FAILURE, Some(e))))
      case Success(cp) =>
        var input := Invocation(CommandLine(javaExecutable, cp, className), Utf8.Encode(source));
        Utf8.DecodeEncode(source);
        Call([Permits.Acquire, Permits.Release], Some(input), Outcome(worker(input), className))
  }

  /** The result once the child has run: its standard output decoded on a zero
      exit; otherwise the exit message, or the bootstrap failure of the step
      that threw. */
  lemma FormatSourceResult(
    javaExecutable: string, classpath: string, worker: Worker, className: string, source: string)
    ensures var c := FormatSource(Granted, javaExecutable, Success(classpath), worker, className, source);
      var run := worker(c.invocation.value);
      && (run.Exited? && run.status == 0 ==> c.result == Success(Utf8.Decode(run.stdout)))
      && (run.Exited? && run.status != 0 ==> c.result == Failure(GoetheException(
            "Formatter exited non-zero (" + JavaFormat.Decimal(run.status) + ") formatting class "
            + className + ":\n" + ErrorOutput(run.stderr), None)))
      && (!run.Exited? ==> c.result == Failure(GoetheException("Failed to bootstrap jdk", Some(run.cause))))
  {
  }

  /** Every call leaves the process permits as it found them: an interrupted
      call takes none, any other call returns the one it took on every path. */
  lemma FormatSourceKeepsPermits(
    pool: Permits.Pool, caller: Permits.Caller,
    acquire: AcquireOutcome, javaExecutable: string, classpath: Result<string, string>,
    worker: Worker, className: string, source: string)
    requires Permits.Valid(pool) && caller !in pool.holders
    requires acquire.Granted? ==> pool.available > 0
    ensures var c := FormatSource(acquire, javaExecutable, classpath, worker, className, source);
      Permits.Replay(pool, Permits.Tag(caller, c.permits)) == Some(pool)
  {
    var c := FormatSource(acquire, javaExecutable, classpath, worker, className, source);
    Permits.BalancedCallRestores(pool, caller, c.permits);
  }

  // ---------------------------------------------------------------------
  // Agreement with the in-process strategy.

  /** How a child JVM's `System.out` and `System.err` turn text into bytes: its
      console encoding. The command line does not choose one, so it is the
      child's platform default, which need not be UTF-8. */
  type ConsoleEncoding = string -> seq<Utf8.byte>

  /** A console whose bytes the parent's UTF-8 decoding reads back unchanged. */
  ghost predicate ReadsBackAsUtf8(console: ConsoleEncoding) {
    forall s: string :: Utf8.Decode(console(s)) == s
  }

  /** A UTF-8 console is read back unchanged. */
  lemma Utf8ConsoleReadsBack()
    ensures ReadsBackAsUtf8(Utf8.Encode)
  {
    forall s: string ensures Utf8.Decode(Utf8.Encode(s)) == s {
      Utf8.DecodeEncode(s);
    }
  }

  /** The US-ASCII console of a child JVM started under a C/POSIX locale: each
      character outside ASCII is written as `?`. */
  function AsciiConsole(s: string): seq<Utf8.byte> {
    if |s| == 0 then []
    else [if s[0] as int < 0x80 then s[0] as int as Utf8.byte else '?' as int as Utf8.byte] + AsciiConsole(s[1..])
  }

  /** A child that follows the worker protocol of GoetheMain: it formats its
      standard input in-process under the class name given as its last
      argument, prints the result through its console and exits 0, or prints
      the failure message and a newline to its error stream and exits 1. */
  function ConformingWorker(engine: DirectFacade.Engine, console: ConsoleEncoding): Worker {
    (inv: Invocation) =>
      var name := if |inv.command| == 0 then "" else inv.command[|inv.command| - 1];
      match DirectFacade.FormatSource(engine, name, Utf8.Decode(inv.stdin))
      case Success(t) => Exited(0, console(t), Complete([]))
      case Failure(e) => Exited(1, [], Complete(console(e.Message() + "\n")))
  }

  lemma ExitOneMessage(className: string, m: string)
    ensures ExitMessage(1, className, m + "\n")
      == "Formatter exited non-zero (1) formatting class " + className + ":\n" + m + "\n"
  {
    assert JavaFormat.Decimal(1) == "1";
  }

  /** A conforming child on a console the parent reads back, started for
      `className` on `source`, leads to the in-process result on success, and
      to the non-zero-exit failure quoting the in-process message otherwise. */
  lemma ConformingOutcome(
    engine: DirectFacade.Engine, console: ConsoleEncoding, inv: Invocation, className: string, source: string)
    requires ReadsBackAsUtf8(console)
    requires |inv.command| > 0 && inv.command[|inv.command| - 1] == className
    requires Utf8.Decode(inv.stdin) == source
    ensures var direct := DirectFacade.FormatSource(engine, className, source);
      var outcome := Outcome(ConformingWorker(engine, console)(inv), className);
      && (direct.Success? ==> outcome == direct)
      && (direct.Failure? ==> outcome == Failure(GoetheException(
            "Formatter exited non-zero (1) formatting class " + className + ":\n"
            + direct.error.message + "\n", None)))
  {
    var direct := DirectFacade.FormatSource(engine, className, source);
    var run := ConformingWorker(engine, console)(inv);
    if direct.Success? {
      assert run == Exited(0, console(direct.value), Complete([]));
      assert Utf8.Decode(console(direct.value)) == direct.value;
    } else {
      var m := direct.error.Message();
      assert m == direct.error.message;
      assert run == Exited(1, [], Complete(console(m + "\n")));
      assert ErrorOutput(run.stderr) == m + "\n";
      assert Outcome(run, className) == Failure(GoetheException(ExitMessage(1, className, m + "\n"), None));
      ExitOneMessage(className, m);
    }
  }

  /** With a conforming child on a console the parent reads back (a UTF-8
      console, by `Utf8ConsoleReadsBack`) the two strategies agree: the same
      formatted text, and on a rejected source the same rendered message behind
      the non-zero-exit prefix. */
  lemma StrategiesAgree(
    engine: DirectFacade.Engine, console: ConsoleEncoding,
    javaExecutable: string, classpath: string, className: string, source: string)
    requires ReadsBackAsUtf8(console)
    ensures var c := FormatSource(Granted, javaExecutable, Success(classpath), ConformingWorker(engine, console), className, source);
      var direct := DirectFacade.FormatSource(engine, className, source);
      && (direct.Success? ==> c.result == direct)
      && (direct.Failure? ==> c.result == Failure(GoetheException(
            "Formatter exited non-zero (1) formatting class " + className + ":\n"
            + direct.error.message + "\n", None)))
  {
    var c := FormatSource(Granted, javaExecutable, Success(classpath), ConformingWorker(engine, console), className, source);
    var inv := c.invocation.value;
    CommandLineNamesClass(javaExecutable, classpath, className);
    ConformingOutcome(engine, console, inv, className, source);
  }

  // ---------------------------------------------------------------------
  // Disagreement when the child's console is not UTF-8.

  /** ASCII console bytes decode to the text with every non-ASCII character
      replaced by `?`, one character per byte. */
  lemma {:induction false} DecodeAsciiConsole(s: string)
    ensures var d := Utf8.Decode(AsciiConsole(s));
      && |d| == |s|
      && forall i :: 0 <= i < |s| ==> d[i] == (if s[i] as int < 0x80 then s[i] else '?')
    decreases |s|
  {
    if |s| > 0 {
      var b := AsciiConsole(s);
      assert b == [b[0]] + AsciiConsole(s[1..]);
      assert b[0] < 0x80;
      assert Utf8.Step(b) == (b[0] as int as char, 1);
      assert b[1..] == AsciiConsole(s[1..]);
      DecodeAsciiConsole(s[1..]);
    }
  }

  /** On a US-ASCII console the strategies disagree on any source whose
      formatted text has a non-ASCII character: the parent decodes a `?` where
      the in-process result keeps the character. */
  lemma AsciiConsoleDiverges(
    engine: DirectFacade.Engine, javaExecutable: string, classpath: string, className: string, source: string, i: nat)
    requires engine(source).Formatted?
    requires i < |engine(source).text| && engine(source).text[i] as int >= 0x80
    ensures var c := FormatSource(Granted, javaExecutable, Success(classpath), ConformingWorker(engine, AsciiConsole), className, source);
      var direct := DirectFacade.FormatSource(engine, className, source);
      && c.result.Success? && direct.Success?
      && |c.result.value| == |direct.value|
      && c.result.value[i] == '?' != direct.value[i]
  {
    var c := FormatSource(Granted, javaExecutable, Success(classpath), ConformingWorker(engine, AsciiConsole), className, source);
    var t := engine(source).text;
    var inv := c.invocation.value;
    CommandLineNamesClass(javaExecutable, classpath, className);
    assert ConformingWorker(engine, AsciiConsole)(inv) == Exited(0, AsciiConsole(t), Complete([]));
    DecodeAsciiConsole(t);
  }

  /** The identity formatter on the source `é`: in-process the result is `é`,
      through a child on a US-ASCII console it is `?`. */
  lemma AccentedSourceDiverges(javaExecutable: string, classpath: string, className: string)
    ensures var engine: DirectFacade.Engine := s => DirectFacade.Formatted(s);
      && DirectFacade.FormatSource(engine, className, "é") == Success("é")
      && FormatSource(Granted, javaExecutable, Success(classpath), ConformingWorker(engine, AsciiConsole), className, "é").result
         == Success("?")
  {
    var engine: DirectFacade.Engine := s => DirectFacade.Formatted(s);
    AsciiConsoleDiverges(engine, javaExecutable, classpath, className, "é", 0);
    var c := FormatSource(Granted, javaExecutable, Success(classpath), ConformingWorker(engine, AsciiConsole), className, "é");
    assert |c.result.value| == 1 && c.result.value[0] == '?';
    assert c.result.value == "?";
  }
}

=== FILE: direct.dfy ===
/** The in-process strategy (DirectFormatterFacade): call the formatting engine
    and turn its diagnostics into a rendered message. */
module DirectFacade {
  import opened Wrappers
  import Renderer

  /** What the formatting engine gives back: the formatted text, or the
      diagnostics of the `FormatterException` it throws. */
  datatype EngineOutcome = Formatted(text: string) | Rejected(diagnostics: seq<Renderer.Diagnostic>)

  /** The formatting engine (palantir-java-format), an opaque total function. */
  type Engine = string -> EngineOutcome

  /** The wrapped cause of a formatting failure. */
  const FORMATTER_EXCEPTION := "com.palantir.javaformat.java.FormatterException"

  /** `DirectFormatterFacade.formatSource(className, source)`. */
  function FormatSource(engine: Engine, className: string, source: string): (r: Result<string, Failure>)
    ensures r.Success? <==> engine(source).Formatted?
    ensures r.Success? ==> r.value == engine(source).text
    ensures r.Failure? ==>
      r.error == GoetheException(
        Renderer.Render(className, source, engine(source).diagnostics), Some(FORMATTER_EXCEPTION))
  {
    match engine(source)
    case Formatted(text) => Success(text)
    case Rejected(ds) =>
      Failure(GoetheException(Renderer.Render(className, source, ds), Some(FORMATTER_EXCEPTION)))
  }

  /** A rejected source is reported under its class name: the message starts
      with the header naming it, or is the fallback when a diagnostic points
      outside the source. */
  lemma RejectionNamesClass(engine: Engine, className: string, source: string)
    requires engine(source).Rejected?
    ensures var m := FormatSource(engine, className, source).error.message;
      m == Renderer.Fallback(source)
      || (|m| >= |Renderer.HEADER_START| + |className| + 1
          && m[..|Renderer.HEADER_START| + |className| + 1] == Renderer.HEADER_START + className + "'")
  {
    Renderer.RenderShape(className, source, engine(source).diagnostics);
  }
}

=== FILE: factory.dfy ===
/** The choice of formatting strategy (FormatterFacadeFactory): format in
    process when the running JVM is older than 16, or when it was started with
    every compiler export the engine needs; otherwise bootstrap a worker JVM. */
module Factory {
  import Bootstrap

  datatype Strategy = Direct | Bootstrapping

  const ADD_EXPORTS := "--add-exports"

  /** The one-argument form, `--add-exports=<m>=ALL-UNNAMED`. */
  function CompoundArg(moduleAndPackage: string): string {
    "--add-exports=" + moduleAndPackage + "=ALL-UNNAMED"
  }

  /** The value of the two-argument form, `<m>=ALL-UNNAMED`. */
  function ValueArg(moduleAndPackage: string): string {
    moduleAndPackage + "=ALL-UNNAMED"
  }

  /** Argument `i` grants the export: it is the one-argument form, or the
      value of the two-argument form right after `--add-exports`. */
  predicate GrantedAt(args: seq<string>, moduleAndPackage: string, i: int) {
    0 <= i < |args|
    && (args[i] == CompoundArg(moduleAndPackage)
        || (args[i] == ValueArg(moduleAndPackage) && i > 0 && args[i - 1] == ADD_EXPORTS))
  }

  /** Some argument grants the export. */
  predicate ExportGranted(args: seq<string>, moduleAndPackage: string) {
    exists i :: 0 <= i < |args| && GrantedAt(args, moduleAndPackage, i)
  }

  /** The loop of `hasExport` from index `i` on: true at the first argument
      that grants the export, false when the arguments run out. */
  function ScanFrom(args: seq<string>, moduleAndPackage: string, i: nat): (r: bool)
    requires i <= |args|
    ensures r <==> exists j :: i <= j < |args| && GrantedAt(args, moduleAndPackage, j)
    decreases |args| - i
  {
    if i == |args| then false
    else if args[i] == CompoundArg(moduleAndPackage) then
      assert GrantedAt(args, moduleAndPackage, i);
      true
    else if args[i] == ValueArg(moduleAndPackage) && i > 0 && args[i - 1] == ADD_EXPORTS then
      assert GrantedAt(args, moduleAndPackage, i);
      true
    else
      var r := ScanFrom(args, moduleAndPackage, i + 1);
      assert !GrantedAt(args, moduleAndPackage, i);
      r
  }

  /** `hasExport(arguments, moduleAndPackage)`. */
  function HasExport(args: seq<string>, moduleAndPackage: string): (r: bool)
    ensures r <==> ExportGranted(args, moduleAndPackage)
  {
    ScanFrom(args, moduleAndPackage, 0)
  }

  /** `required.stream().allMatch(m -> hasExport(args, m))`. */
  function AllGranted(args: seq<string>, required: seq<string>): (r: bool)
    ensures r <==> forall k :: 0 <= k < |required| ==> ExportGranted(args, required[k])
  {
    if |required| == 0 then true
    else
      var rest := AllGranted(args, required[1..]);
      assert forall k :: 1 <= k < |required| ==> required[k] == required[1..][k - 1];
      HasExport(args, required[0]) && rest
  }

  /** `currentJvmHasExportArgs()`, with the JVM's input arguments as a parameter. */
  function CurrentJvmHasExportArgs(args: seq<string>): (r: bool)
    ensures r <==> forall k :: 0 <= k < |Bootstrap.REQUIRED_EXPORTS| ==> ExportGranted(args, Bootstrap.REQUIRED_EXPORTS[k])
  {
    AllGranted(args, Bootstrap.REQUIRED_EXPORTS)
  }

  /** `create()`, with the feature version of the running JVM and its input
      arguments as parameters. */
  function Create(featureVersion: int, args: seq<string>): (r: Strategy)
    ensures r == Direct <==>
      featureVersion < 16
      || forall k :: 0 <= k < |Bootstrap.REQUIRED_EXPORTS| ==> ExportGranted(args, Bootstrap.REQUIRED_EXPORTS[k])
  {
    if featureVersion < 16 || CurrentJvmHasExportArgs(args) then Direct else Bootstrapping
  }

  // ---------------------------------------------------------------------
  // Properties of the export scan.

  /** The one-argument form anywhere in the arguments grants the export. */
  lemma CompoundFormGrants(before: seq<string>, after: seq<string>, moduleAndPackage: string)
    ensures HasExport(before + [CompoundArg(moduleAndPackage)] + after, moduleAndPackage)
  {
    assert GrantedAt(before + [CompoundArg(moduleAndPackage)] + after, moduleAndPackage, |before|);
  }

  /** `--add-exports` followed by the value grants the export. */
  lemma PairFormGrants(before: seq<string>, after: seq<string>, moduleAndPackage: string)
    ensures HasExport(before + [ADD_EXPORTS, ValueArg(moduleAndPackage)] + after, moduleAndPackage)
  {
    var args := before + [ADD_EXPORTS, ValueArg(moduleAndPackage)] + after;
    assert args[|before|] == ADD_EXPORTS && args[|before| + 1] == ValueArg(moduleAndPackage);
    assert GrantedAt(args, moduleAndPackage, |before| + 1);
  }

  /** The value of the two-argument form does not count on its own, and
      neither does a pair in the wrong order. */
  lemma ValueAloneDoesNotGrant(moduleAndPackage: string)
    ensures !HasExport([ValueArg(moduleAndPackage)], moduleAndPackage)
    ensures !HasExport([ValueArg(moduleAndPackage), ADD_EXPORTS], moduleAndPackage)
  {
    ValueIsNotCompound(moduleAndPackage);
    ValueIsNotFlag(moduleAndPackage);
    var args := [ValueArg(moduleAndPackage), ADD_EXPORTS];
    assert !GrantedAt(args, moduleAndPackage, 0);
    assert !GrantedAt(args, moduleAndPackage, 1);
  }

  lemma ValueIsNotCompound(moduleAndPackage: string)
    ensures ValueArg(moduleAndPackage) != CompoundArg(moduleAndPackage)
  {
    assert |CompoundArg(moduleAndPackage)| == |ValueArg(moduleAndPackage)| + |"--add-exports="|;
  }

  lemma ValueIsNotFlag(moduleAndPackage: string)
    ensures ValueArg(moduleAndPackage) != ADD_EXPORTS
    ensures CompoundArg(moduleAndPackage) != ADD_EXPORTS
  {
    var v := ValueArg(moduleAndPackage);
    assert v[|v| - 1] == 'D';
    assert ADD_EXPORTS[|ADD_EXPORTS| - 1] == 's';
    var c := CompoundArg(moduleAndPackage);
    assert |c| > |ADD_EXPORTS|;
  }

  /** Adding arguments before or after never withdraws a granted export. */
  lemma GrantedMonotone(before: seq<string>, args: seq<string>, after: seq<string>, moduleAndPackage: string)
    requires HasExport(args, moduleAndPackage)
    ensures HasExport(before + args + after, moduleAndPackage)
  {
    var i :| 0 <= i < |args| && GrantedAt(args, moduleAndPackage, i);
    var all := before + args + after;
    assert all[|before| + i] == args[i];
    if i > 0 {
      assert all[|before| + i - 1] == args[i - 1];
    }
    assert GrantedAt(all, moduleAndPackage, |before| + i);
  }

  // The cases the factory's unit tests check, for the `javac.file` package.

  const FILE_EXPORT := "jdk.compiler/com.sun.tools.javac.file"

  // The two lemmas below split a long string literal into steps the solver
  // can take one at a time.

  lemma FileExportPrefix()
    ensures "--add-exports=" + FILE_EXPORT == "--add-exports=jdk.compiler/com.sun.tools.javac.file"
  {
  }

  lemma FileExportSuffix()
    ensures "--add-exports=jdk.compiler/com.sun.tools.javac.file" + "=ALL-UNNAMED"
      == "--add-exports=jdk.compiler/com.sun.tools.javac.file=ALL-UNNAMED"
  {
  }

  lemma FileExportArgs()
    ensures ValueArg(FILE_EXPORT) == "jdk.compiler/com.sun.tools.javac.file=ALL-UNNAMED"
    ensures CompoundArg(FILE_EXPORT) == "--add-exports=jdk.compiler/com.sun.tools.javac.file=ALL-UNNAMED"
  {
    FileExportPrefix();
    FileExportSuffix();
  }

  /** No arguments, or unrelated ones, grant nothing. */
  lemma ExampleNoExport()
    ensures !HasExport([], FILE_EXPORT)
    ensures !HasExport(["a", "b"], FILE_EXPORT)
  {
    assert |ValueArg(FILE_EXPORT)| > 1 && |CompoundArg(FILE_EXPORT)| > 1;
  }

  /** The one-argument form grants the export. */
  lemma ExampleCompound()
    ensures HasExport(["--add-exports=jdk.compiler/com.sun.tools.javac.file=ALL-UNNAMED"], FILE_EXPORT)
  {
    FileExportArgs();
    CompoundFormGrants([], [], FILE_EXPORT);
    assert [] + [CompoundArg(FILE_EXPORT)] + [] == [CompoundArg(FILE_EXPORT)];
  }

  /** The two-argument form grants the export. */
  lemma ExamplePair()
    ensures HasExport(["--add-exports", "jdk.compiler/com.sun.tools.javac.file=ALL-UNNAMED"], FILE_EXPORT)
  {
    FileExportArgs();
    PairFormGrants([], [], FILE_EXPORT);
    assert [] + [ADD_EXPORTS, ValueArg(FILE_EXPORT)] + [] == [ADD_EXPORTS, ValueArg(FILE_EXPORT)];
  }

  /** The two-argument form in the wrong order does not. */
  lemma ExampleWrongOrder()
    ensures !HasExport(["jdk.compiler/com.sun.tools.javac.file=ALL-UNNAMED", "--add-exports"], FILE_EXPORT)
  {
    FileExportArgs();
    ValueAloneDoesNotGrant(FILE_EXPORT);
  }

  // ---------------------------------------------------------------------
  // The worker's command line passes the check.

  /** A JVM whose input arguments include the worker's export options has
      every required export, so `create` would choose the in-process strategy
      there whatever the JVM's version: the worker's options meet the
      factory's own criterion (the worker itself constructs the in-process
      facade directly and does not consult the factory). */
  lemma WorkerHasExports(before: seq<string>, after: seq<string>, featureVersion: int)
    ensures CurrentJvmHasExportArgs(before + Bootstrap.EXPORTS + after)
    ensures Create(featureVersion, before + Bootstrap.EXPORTS + after) == Direct
  {
    var args := before + Bootstrap.EXPORTS + after;
    forall k | 0 <= k < |Bootstrap.REQUIRED_EXPORTS|
      ensures ExportGranted(args, Bootstrap.REQUIRED_EXPORTS[k])
    {
      var m := Bootstrap.REQUIRED_EXPORTS[k];
      assert Bootstrap.EXPORTS[k] == CompoundArg(m);
      assert GrantedAt(Bootstrap.EXPORTS, m, k);
      GrantedMonotone(before, Bootstrap.EXPORTS, after, m);
    }
  }
}

=== FILE: goethe.dfy ===
/** The `Goethe` entry points: formatting a generated Java file to a string,
    and the names and paths under which the result is emitted. A generated
    file is its package, its type name and the text JavaPoet writes for it. */
module Goethe {
  import opened Wrappers
  import Text
  import Renderer
  import DirectFacade

  datatype JavaFile = JavaFile(packageName: string, typeName: string, text: string)

  /** `className(file)`: the qualified name, or the bare type name in the
      default package. */
  function ClassName(f: JavaFile): (r: string)
    ensures f.packageName == "" ==> r == f.typeName
    ensures f.packageName != "" ==> r == f.packageName + "." + f.typeName
  {
    if f.packageName == "" then f.typeName else f.packageName + "." + f.typeName
  }

  /** The subject Goethe's own `generateMessage` puts in its header: package and
      type name always joined by a dot. */
  function ReportSubject(f: JavaFile): string {
    f.packageName + "." + f.typeName
  }

  /** `formatAsString(file)`. */
  function FormatAsString(engine: DirectFacade.Engine, f: JavaFile): (r: Result<string, Failure>)
    ensures r.Success? <==> engine(f.text).Formatted?
    ensures r.Success? ==> r.value == engine(f.text).text
    ensures r.Failure? ==> r.error.GoetheException? && r.error.cause == Some(DirectFacade.FORMATTER_EXCEPTION)
    ensures r.Failure? ==> r.error.message == Renderer.Render(ReportSubject(f), f.text, engine(f.text).diagnostics)
  {
    match engine(f.text)
    case Formatted(t) => Success(t)
    case Rejected(ds) =>
      Failure(GoetheException(Renderer.Render(ReportSubject(f), f.text, ds), Some(DirectFacade.FORMATTER_EXCEPTION)))
  }

  /** The two copies of the renderer agree whenever the package is named:
      formatting a file directly gives what the in-process facade gives for
      its class name. */
  lemma FormatAsStringMatchesFacade(engine: DirectFacade.Engine, f: JavaFile)
    requires f.packageName != ""
    ensures FormatAsString(engine, f) == DirectFacade.FormatSource(engine, ClassName(f), f.text)
  {
  }

  /** In the default package the two copies differ: Goethe's header names the
      type with a leading dot. */
  lemma DefaultPackageSubject(f: JavaFile)
    requires f.packageName == ""
    ensures ReportSubject(f) == "." + ClassName(f)
    ensures ReportSubject(f) != ClassName(f)
  {
    assert |ReportSubject(f)| == |ClassName(f)| + 1;
  }

  /** A rejected file is reported under its package and type name joined by a
      dot, in the default package too (where the header reads `'.Type'`), or
      the message is the fallback when a diagnostic points outside the text. */
  lemma RejectionHeader(engine: DirectFacade.Engine, f: JavaFile)
    requires engine(f.text).Rejected?
    ensures var m := FormatAsString(engine, f).error.message;
      var header := Renderer.HEADER_START + f.packageName + "." + f.typeName + "'";
      m == Renderer.Fallback(f.text) || (|m| >= |header| && m[..|header|] == header)
  {
    Renderer.RenderShape(ReportSubject(f), f.text, engine(f.text).diagnostics);
    assert Renderer.HEADER_START + ReportSubject(f) + "'" == Renderer.HEADER_START + f.packageName + "." + f.typeName + "'";
  }

  /** Outcome of the file-system or filer writes. */
  datatype IoOutcome = IoOk | IoError(cause: string)

  /** What the annotation-processing filer receives. */
  datatype Emitted = Emitted(name: string, contents: string)

  /** `formatAndEmit(file, filer)`: the formatted text is created under the
      class name; formatting failures surface before the filer is touched. */
  function EmitToFiler(engine: DirectFacade.Engine, f: JavaFile, io: IoOutcome): (r: Result<Emitted, Failure>)
    ensures FormatAsString(engine, f).Failure? ==> r == Failure(FormatAsString(engine, f).error)
    ensures r.Success? <==> FormatAsString(engine, f).Success? && io.IoOk?
    ensures r.Success? ==> r.value == Emitted(ClassName(f), FormatAsString(engine, f).value)
    ensures FormatAsString(engine, f).Success? && io.IoError? ==>
      r == Failure(GoetheException("Failed to write formatted code to the filer", Some(io.cause)))
  {
    match FormatAsString(engine, f)
    case Failure(e) => Failure(e)
    case Success(formatted) =>
      match io
      case IoOk => Success(Emitted(ClassName(f), formatted))
      case IoError(cause) => Failure(GoetheException("Failed to write formatted code to the filer", Some(cause)))
  }

  // ---------------------------------------------------------------------
  // Output paths.

  /** A base directory followed by the name elements resolved against it. */
  datatype Path = Path(base: string, names: seq<string>)

  /** `Path.resolve(other)`: an empty `other` leaves the path unchanged. */
  function Resolve(p: Path, other: string): Path {
    if other == "" then p else Path(p.base, p.names + [other])
  }

  /** The non-empty pieces, in order. */
  function NonEmpty(pieces: seq<string>): (r: seq<string>)
    ensures |r| <= |pieces|
    ensures forall i :: 0 <= i < |r| ==> r[i] != ""
  {
    if |pieces| == 0 then []
    else (if pieces[0] == "" then [] else [pieces[0]]) + NonEmpty(pieces[1..])
  }

  /** The loop over package components in `getFilePath`. */
  function ResolveAll(p: Path, components: seq<string>): (r: Path)
    ensures r == Path(p.base, p.names + NonEmpty(components))
    decreases |components|
  {
    if |components| == 0 then p
    else
      var r := ResolveAll(Resolve(p, components[0]), components[1..]);
      assert p.names + NonEmpty(components)
        == p.names + (if components[0] == "" then [] else [components[0]]) + NonEmpty(components[1..]);
      r
  }

  /** What the file system says about the base directory. */
  datatype Probe = Probe(notExists: bool, isDirectory: bool)

  function NotADirectoryMessage(baseDir: Path): string {
    "path " + baseDir.base + Text.Join([""] + baseDir.names, '/') + " exists but is not a directory."
  }

  /** `getFilePath(file, baseDir)` without the directory creation: package
      components become directories under `baseDir`, then `Name.java`. */
  function GetFilePath(f: JavaFile, baseDir: Path, probe: Probe): (r: Result<Path, Failure>)
    ensures r.Success? <==> probe.notExists || probe.isDirectory
    ensures r.Failure? ==> r.error.IllegalArgument?
    ensures r.Success? ==>
      r.value == Path(baseDir.base, baseDir.names + NonEmpty(Text.Split(f.packageName, '.')) + [f.typeName + ".java"])
  {
    if !(probe.notExists || probe.isDirectory) then
      Failure(IllegalArgument(NotADirectoryMessage(baseDir)))
    else
      var dir := if f.packageName == "" then baseDir else ResolveAll(baseDir, Text.Split(f.packageName, '.'));
      assert f.packageName == "" ==> Text.Split(f.packageName, '.') == [""];
      Success(Resolve(dir, f.typeName + ".java"))
  }

  /** The package has no empty component (no leading, trailing or doubled dot). */
  predicate WellFormedPackage(packageName: string) {
    forall i :: 0 <= i < |Text.Split(packageName, '.')| ==> Text.Split(packageName, '.')[i] != ""
  }

  lemma {:induction false} NonEmptyOfNonEmpty(pieces: seq<string>)
    requires forall i :: 0 <= i < |pieces| ==> pieces[i] != ""
    ensures NonEmpty(pieces) == pieces
    decreases |pieces|
  {
    if |pieces| > 0 {
      NonEmptyOfNonEmpty(pieces[1..]);
      assert pieces == [pieces[0]] + pieces[1..];
    }
  }

  /** In the default package the file sits directly in the base directory. */
  lemma DefaultPackagePath(f: JavaFile, baseDir: Path, probe: Probe)
    requires f.packageName == ""
    requires probe.notExists || probe.isDirectory
    ensures GetFilePath(f, baseDir, probe) == Success(Path(baseDir.base, baseDir.names + [f.typeName + ".java"]))
  {
    assert Text.Split(f.packageName, '.') == [""];
    assert NonEmpty([""]) == [];
  }

  /** A well-formed package contributes exactly its dot-separated components,
      in order, and the path read back with dots spells the class name. */
  lemma PackagePath(f: JavaFile, baseDir: Path, probe: Probe)
    requires probe.notExists || probe.isDirectory
    requires f.packageName == "" || WellFormedPackage(f.packageName)
    ensures var names := GetFilePath(f, baseDir, probe).value.names;
      |names| >= |baseDir.names| + 1
      && Text.Join(names[|baseDir.names|..], '.') == ClassName(f) + ".java"
  {
    var file := f.typeName + ".java";
    var names := GetFilePath(f, baseDir, probe).value.names;
    if f.packageName == "" {
      assert Text.Split(f.packageName, '.') == [""];
      assert NonEmpty([""]) == [];
      assert names[|baseDir.names|..] == [file];
    } else {
      var comps := Text.Split(f.packageName, '.');
      NonEmptyOfNonEmpty(comps);
      assert names == baseDir.names + comps + [file];
      assert names[|baseDir.names|..] == comps + [file];
      Text.JoinAppend(comps, file, '.');
      Text.JoinSplit(f.packageName, '.');
    }
  }

  /** Where the formatted text is written, and what. */
  datatype Written = Written(path: Path, contents: string)

  /** `formatAndEmit(file, baseDir)`. `io` is the outcome of creating the
      package directories and writing the file; either failing is an
      `IOException`. The base-directory check is not one and is not wrapped. */
  function EmitToDirectory(engine: DirectFacade.Engine, f: JavaFile, baseDir: Path, probe: Probe, io: IoOutcome)
    : (r: Result<Written, Failure>)
    ensures r.Success? <==>
      FormatAsString(engine, f).Success? && GetFilePath(f, baseDir, probe).Success? && io.IoOk?
    ensures r.Success? ==>
      r.value == Written(GetFilePath(f, baseDir, probe).value, FormatAsString(engine, f).value)
    ensures FormatAsString(engine, f).Failure? ==> r == Failure(FormatAsString(engine, f).error)
    ensures FormatAsString(engine, f).Success? && GetFilePath(f, baseDir, probe).Failure? ==>
      r == Failure(GetFilePath(f, baseDir, probe).error)
    ensures FormatAsString(engine, f).Success? && GetFilePath(f, baseDir, probe).Success? && io.IoError? ==>
      r == Failure(GoetheException("Failed to write formatted sources", Some(io.cause)))
  {
    match FormatAsString(engine, f)
    case Failure(e) => Failure(e)
    case Success(formatted) =>
      match GetFilePath(f, baseDir, probe)
      case Failure(e) => Failure(e)
      case Success(path) =>
        match io
        case IoOk => Success(Written(path, formatted))
        case IoError(cause) => Failure(GoetheException("Failed to write formatted sources", Some(cause)))
  }
}

=== FILE: javaformat.dfy ===
/** The part of `java.util.Formatter` (`String.format`) the facades use: the
    `%s` and `%d` conversions and the `%%` escape, with `%d` rendering an `int`
    the way `Integer.toString` does. */
module JavaFormat {
  import opened Wrappers

  /** A format argument: a string, or an integer for `%d`. */
  datatype Arg = Str(s: string) | Int(n: int)

  function DigitChar(d: nat): (c: char)
    requires d < 10
    ensures '0' <= c <= '9' && c as int - '0' as int == d
  {
    ['0', '1', '2', '3', '4', '5', '6', '7', '8', '9'][d]
  }

  predicate IsDigit(c: char) {
    '0' <= c <= '9'
  }

  /** Decimal digits of `n`, most significant first, without leading zeros. */
  function Digits(n: nat): (r: string)
    ensures |r| >= 1
    ensures forall i :: 0 <= i < |r| ==> IsDigit(r[i])
    ensures r[0] == '0' ==> n == 0
  {
    if n < 10 then [DigitChar(n)] else Digits(n / 10) + [DigitChar(n % 10)]
  }

  /** `Integer.toString(n)`: a minus sign for negative values, then the digits. */
  function Decimal(n: int): (r: string)
    ensures |r| >= 1
    ensures r[0] == '-' <==> n < 0
  {
    if n < 0 then "-" + Digits(-n) else Digits(n)
  }

  /** Value of a non-empty run of decimal digits. */
  function DigitsValue(s: string): nat
    requires forall i :: 0 <= i < |s| ==> IsDigit(s[i])
  {
    if |s| == 0 then 0
    else
      assert IsDigit(s[|s| - 1]);
      DigitsValue(s[..|s| - 1]) * 10 + (s[|s| - 1] as int - '0' as int)
  }

  /** `Integer.parseInt` restricted to what `Decimal` produces. */
  function ParseDecimal(s: string): Option<int> {
    if |s| >= 2 && s[0] == '-' && (forall i :: 1 <= i < |s| ==> IsDigit(s[i])) then
      var magnitude: int := DigitsValue(s[1..]);
      Some(-magnitude)
    else if |s| >= 1 && forall i :: 0 <= i < |s| ==> IsDigit(s[i]) then
      Some(DigitsValue(s))
    else None
  }

  lemma {:induction false} DigitsRoundTrip(n: nat)
    ensures DigitsValue(Digits(n)) == n
  {
    if n >= 10 {
      var d := Digits(n);
      DigitsRoundTrip(n / 10);
      assert d[..|d| - 1] == Digits(n / 10);
    }
  }

  /** A minus sign followed by digits parses to the negated digit value. */
  lemma ParseNegative(d: string)
    requires |d| >= 1 && forall i :: 0 <= i < |d| ==> IsDigit(d[i])
    ensures ParseDecimal("-" + d) == Some(-(DigitsValue(d) as int))
  {
    var s := "-" + d;
    assert s[1..] == d;
    forall i | 1 <= i < |s| ensures IsDigit(s[i]) {
      assert s[i] == d[i - 1];
    }
  }

  /** A run of digits parses to its value. */
  lemma ParseDigits(d: string)
    requires |d| >= 1 && forall i :: 0 <= i < |d| ==> IsDigit(d[i])
    ensures ParseDecimal(d) == Some(DigitsValue(d))
  {
    assert d[0] != '-';
  }

  /** Reading back the decimal rendering of an integer gives the integer. */
  lemma {:induction false} DecimalRoundTrip(n: int)
    ensures ParseDecimal(Decimal(n)) == Some(n)
  {
    if n < 0 {
      var d := Digits(-n);
      ParseNegative(d);
      DigitsRoundTrip(-n);
      assert ParseDecimal("-" + d) == Some(n);
    } else {
      var d := Digits(n);
      ParseDigits(d);
      DigitsRoundTrip(n);
      assert ParseDecimal(d) == Some(n);
    }
  }

  /** The text a `%s` conversion gives an argument. */
  function Show(a: Arg): string {
    match a
    case Str(s) => s
    case Int(n) => Decimal(n)
  }

  function Prepend(prefix: string, rest: Option<string>): Option<string> {
    match rest
    case None => None
    case Some(t) => Some(prefix + t)
  }

  /** `String.format(template, args)`: `None` stands for the exception Java throws
      (a missing argument or `%d` given a string), and also for any conversion
      this model does not cover (anything but `%s`, `%d` and `%%`). Surplus
      arguments are ignored, as in Java. */
  function Format(template: string, args: seq<Arg>): Option<string>
    decreases |template|
  {
    if |template| == 0 then Some("")
    else if template[0] != '%' then Prepend([template[0]], Format(template[1..], args))
    else if |template| == 1 then None
    else if template[1] == '%' then Prepend("%", Format(template[2..], args))
    else if template[1] == 's' then
      if |args| == 0 then None else Prepend(Show(args[0]), Format(template[2..], args[1..]))
    else if template[1] == 'd' then
      if |args| == 0 || !args[0].Int? then None
      else Prepend(Decimal(args[0].n), Format(template[2..], args[1..]))
    else None
  }

  /** Literal text without `%` is copied to the output unchanged. */
  lemma {:induction false} FormatLiteral(lit: string, rest: string, args: seq<Arg>)
    requires '%' !in lit
    ensures Format(lit + rest, args) == Prepend(lit, Format(rest, args))
    decreases |lit|
  {
    if |lit| == 0 {
      assert lit + rest == rest;
      match Format(rest, args)
      case None =>
      case Some(t) => assert lit + t == t;
    } else {
      var t := lit + rest;
      assert t[0] == lit[0] && t[1..] == lit[1..] + rest;
      assert lit[0] in lit;
      assert '%' !in lit[1..] by {
        forall i | 0 <= i < |lit[1..]| ensures lit[1..][i] != '%' {
          assert lit[1..][i] == lit[i + 1];
        }
      }
      FormatLiteral(lit[1..], rest, args);
      match Format(rest, args)
      case None =>
      case Some(u) => assert [lit[0]] + (lit[1..] + u) == lit + u;
    }
  }

  /** A template without directives formats to itself. */
  lemma FormatPlain(lit: string, args: seq<Arg>)
    requires '%' !in lit
    ensures Format(lit, args) == Some(lit)
  {
    FormatLiteral(lit, "", args);
    assert lit + "" == lit;
  }

  /** A leading `%s` consumes the first argument. */
  lemma FormatString(rest: string, a: Arg, args: seq<Arg>)
    ensures Format("%s" + rest, [a] + args) == Prepend(Show(a), Format(rest, args))
  {
    var t := "%s" + rest;
    assert t[0] == '%' && t[1] == 's' && t[2..] == rest;
    assert ([a] + args)[1..] == args;
  }

  /** A leading `%d` consumes the first argument, which must be an integer. */
  lemma FormatInt(rest: string, n: int, args: seq<Arg>)
    ensures Format("%d" + rest, [Int(n)] + args) == Prepend(Decimal(n), Format(rest, args))
  {
    var t := "%d" + rest;
    assert t[0] == '%' && t[1] == 'd' && t[2..] == rest;
    assert ([Int(n)] + args)[1..] == args;
  }

  /** A template of literal text around one `%s` conversion. */
  lemma FormatOneString(a: string, c: string, x: Arg)
    requires '%' !in a && '%' !in c
    ensures Format(a + ("%s" + c), [x]) == Some(a + (Show(x) + c))
  {
    FormatPlain(c, []);
    FormatString(c, x, []);
    assert [x] + [] == [x];
    FormatLiteral(a, "%s" + c, [x]);
  }

  /** A template of literal text around two `%s` conversions. */
  lemma FormatTwoStrings(a: string, b: string, c: string, x: Arg, y: Arg)
    requires '%' !in a && '%' !in b && '%' !in c
    ensures Format(a + ("%s" + (b + ("%s" + c))), [x, y]) == Some(a + (Show(x) + (b + (Show(y) + c))))
  {
    FormatPlain(c, []);
    FormatString(c, y, []);
    assert [y] + [] == [y];
    assert Format("%s" + c, [y]) == Some(Show(y) + c);
    FormatLiteral(b, "%s" + c, [y]);
    assert Format(b + ("%s" + c), [y]) == Some(b + (Show(y) + c));
    assert [x] + [y] == [x, y];
    FormatString(b + ("%s" + c), x, [y]);
    assert Format("%s" + (b + ("%s" + c)), [x, y]) == Some(Show(x) + (b + (Show(y) + c)));
    FormatLiteral(a, "%s" + (b + ("%s" + c)), [x, y]);
  }

  /** A template of literal text around a `%d` conversion followed by two `%s`
      conversions. */
  lemma FormatIntTwoStrings(a: string, b: string, c: string, d: string, n: int, x: Arg, y: Arg)
    requires '%' !in a && '%' !in b && '%' !in c && '%' !in d
    ensures Format(a + ("%d" + (b + ("%s" + (c + ("%s" + d))))), [Int(n), x, y])
      == Some(a + (Decimal(n) + (b + (Show(x) + (c + (Show(y) + d))))))
  {
    var tail := b + ("%s" + (c + ("%s" + d)));
    FormatTwoStrings(b, c, d, x, y);
    assert [Int(n)] + [x, y] == [Int(n), x, y];
    FormatInt(tail, n, [x, y]);
    assert Format("%d" + tail, [Int(n), x, y]) == Some(Decimal(n) + (b + (Show(x) + (c + (Show(y) + d)))));
    FormatLiteral(a, "%d" + tail, [Int(n), x, y]);
  }
}

=== FILE: permits.dfy ===
/** The process semaphore of the out-of-process strategy as a sequential
    permit counter. Each caller that holds a permit is recorded, so that the
    count of free permits can be related to the calls in flight. */
module Permits {
  import opened Wrappers

  datatype PermitOp = Acquire | Release

  type Caller = nat

  /** `available` free permits out of `max`; `holders` are the callers that
      acquired a permit and have not released it yet. */
  datatype Pool = Pool(available: int, max: nat, holders: set<Caller>)

  /** Every permit is either free or held by exactly one caller. */
  predicate Valid(p: Pool) {
    0 <= p.available && p.available + |p.holders| == p.max
  }

  /** `MAX_PROCESSES`: twice the number of available processors. */
  function MaxProcesses(processors: nat): nat {
    processors * 2
  }

  /** The semaphore as created: all permits free. */
  function Initial(processors: nat): (p: Pool)
    ensures Valid(p) && p.holders == {}
    ensures p.available == p.max == 2 * processors
  {
    Pool(MaxProcesses(processors), MaxProcesses(processors), {})
  }

  /** One permit operation by `caller`, or `None` when it cannot happen now:
      an acquire with no free permit waits, and only a holder releases. */
  function Apply(p: Pool, caller: Caller, op: PermitOp): (r: Option<Pool>)
    ensures op == Acquire ==> (r.Some? <==> p.available > 0 && caller !in p.holders)
    ensures op == Release ==> (r.Some? <==> caller in p.holders)
    ensures r.Some? ==> r.value.max == p.max
  {
    match op
    case Acquire =>
      if p.available > 0 && caller !in p.holders then Some(Pool(p.available - 1, p.max, p.holders + {caller}))
      else None
    case Release =>
      if caller in p.holders then Some(Pool(p.available + 1, p.max, p.holders - {caller}))
      else None
  }

  /** Each operation keeps every permit either free or held. */
  lemma ApplyKeepsValid(p: Pool, caller: Caller, op: PermitOp)
    requires Valid(p) && Apply(p, caller, op).Some?
    ensures Valid(Apply(p, caller, op).value)
  {
  }

  datatype Event = Event(caller: Caller, op: PermitOp)

  /** A run of permit operations from many callers, interleaved in any order;
      `None` if some operation could not happen when it was issued. */
  function Replay(p: Pool, events: seq<Event>): Option<Pool>
    decreases |events|
  {
    if |events| == 0 then Some(p)
    else
      match Apply(p, events[0].caller, events[0].op)
      case None => None
      case Some(q) => Replay(q, events[1..])
  }

  /** Any interleaving keeps the free permits within `[0, max]` and every
      permit accounted for. */
  lemma {:induction false} ReplayKeepsValid(p: Pool, events: seq<Event>)
    requires Valid(p) && Replay(p, events).Some?
    ensures Valid(Replay(p, events).value)
    ensures Replay(p, events).value.max == p.max
    ensures 0 <= Replay(p, events).value.available <= p.max
    decreases |events|
  {
    if |events| > 0 {
      var q := Apply(p, events[0].caller, events[0].op).value;
      ApplyKeepsValid(p, events[0].caller, events[0].op);
      ReplayKeepsValid(q, events[1..]);
    }
  }

  /** Once no call holds a permit, all permits are free again. */
  lemma AllReleasedMeansFull(processors: nat, events: seq<Event>)
    requires Replay(Initial(processors), events).Some?
    requires Replay(Initial(processors), events).value.holders == {}
    ensures Replay(Initial(processors), events).value.available == MaxProcesses(processors)
  {
    ReplayKeepsValid(Initial(processors), events);
    assert |Replay(Initial(processors), events).value.holders| == 0;
  }

  /** The operations of one call, attributed to its caller. */
  function Tag(caller: Caller, ops: seq<PermitOp>): (r: seq<Event>)
    ensures |r| == |ops|
    ensures forall i :: 0 <= i < |r| ==> r[i] == Event(caller, ops[i])
  {
    if |ops| == 0 then [] else [Event(caller, ops[0])] + Tag(caller, ops[1..])
  }

  /** The permit discipline of one call: nothing if acquisition was
      interrupted, otherwise one acquire and exactly one release. */
  predicate Balanced(ops: seq<PermitOp>) {
    ops == [] || ops == [Acquire, Release]
  }

  /** A balanced call that could start leaves the pool as it found it. */
  lemma BalancedCallRestores(p: Pool, caller: Caller, ops: seq<PermitOp>)
    requires Valid(p) && caller !in p.holders && Balanced(ops)
    requires ops != [] ==> p.available > 0
    ensures Replay(p, Tag(caller, ops)) == Some(p)
  {
    if ops != [] {
      var es := Tag(caller, ops);
      var q := Pool(p.available - 1, p.max, p.holders + {caller});
      assert Apply(p, caller, Acquire) == Some(q);
      assert Apply(q, caller, Release) == Some(Pool(p.available, p.max, p.holders + {caller} - {caller}));
      assert p.holders + {caller} - {caller} == p.holders;
      assert es[0] == Event(caller, Acquire);
      assert es[1..][0] == Event(caller, Release);
      assert es[1..][1..] == [];
      assert Replay(q, es[1..]) == Replay(p, es[1..][1..]);
    }
  }
}

=== FILE: renderer.dfy ===
/** The diagnostic renderer behind both copies of `generateMessage`
    (DirectFormatterFacade and Goethe): a report that quotes the offending source
    line of every diagnostic with a caret under the column, or, when a diagnostic
    points outside the source, a fallback that repeats the source verbatim.
    The two copies differ only in the subject of the header; it is a parameter here. */
module Renderer {
  import opened Wrappers
  import Text

  /** A formatting-engine diagnostic. `line` and `column` are meant to be
      1-based; nothing stops the engine from reporting other values. */
  datatype Diagnostic = Diagnostic(line: int, column: int, message: string)

  const HEADER_START := "Failed to format '"
  const FALLBACK_START := "Failed to format:\n"

  /** First line of a report, with its newline. */
  function Header(subject: string): string {
    HEADER_START + subject + "'\n"
  }

  /** What `generateMessage` returns when rendering a diagnostic fails. */
  function Fallback(source: string): string {
    FALLBACK_START + source
  }

  /** The source text cut at every `'\n'`, empty pieces kept. */
  function Lines(source: string): seq<string> {
    Text.Split(source, '\n')
  }

  /** `Math.max(0, column - 2)`. */
  function CaretWidth(column: int): nat {
    if column - 2 > 0 then column - 2 else 0
  }

  /** The caret line: `CaretWidth(column)` spaces, then `^`. */
  function CaretLine(column: int): (r: string)
    ensures |r| == (if column > 2 then column - 1 else 1)
    ensures r[|r| - 1] == '^'
    ensures forall i :: 0 <= i < |r| - 1 ==> r[i] == ' '
  {
    Text.Repeat(' ', CaretWidth(column)) + "^"
  }

  /** `lines.get(line - 1)` succeeds. */
  predicate InRange(d: Diagnostic, lines: seq<string>) {
    1 <= d.line <= |lines|
  }

  predicate AllInRange(ds: seq<Diagnostic>, lines: seq<string>) {
    forall i :: 0 <= i < |ds| ==> InRange(ds[i], lines)
  }

  /** The text one diagnostic contributes to the report. */
  function Block(d: Diagnostic, lines: seq<string>): string
    requires InRange(d, lines)
  {
    d.message + "\n" + lines[d.line - 1] + "\n" + CaretLine(d.column) + "\n\n"
  }

  /** Text whose last three characters are `^` and two newlines. */
  predicate EndsWithCaret(t: string) {
    |t| >= 3 && t[|t| - 3] == '^' && t[|t| - 2] == '\n' && t[|t| - 1] == '\n'
  }

  /** The blocks of all diagnostics in order, or `None` when the lookup of
      some diagnostic's line throws. */
  function Blocks(ds: seq<Diagnostic>, lines: seq<string>): (r: Option<string>)
    ensures r.Some? <==> AllInRange(ds, lines)
    ensures r.Some? && |ds| > 0 ==> EndsWithCaret(r.value)
  {
    if |ds| == 0 then Some("")
    else if !InRange(ds[0], lines) then None
    else
      match Blocks(ds[1..], lines)
      case None => None
      case Some(rest) =>
        var b := Block(ds[0], lines);
        assert EndsWithCaret(b);
        assert |ds[1..]| > 0 ==> EndsWithCaret(rest);
        assert |ds[1..]| == 0 ==> rest == "";
        Some(b + rest)
  }

  /** `generateMessage(subject, source, diagnostics)`. */
  function Render(subject: string, source: string, ds: seq<Diagnostic>): string {
    match Blocks(ds, Lines(source))
    case None => Fallback(source)
    case Some(body) => Text.Trim(Header(subject) + body, '\n')
  }

  // ---------------------------------------------------------------------
  // Properties of the rendered message.

  lemma {:induction false} HeaderAndFallbackDiffer(subject: string, source: string, x: string)
    requires |x| >= |HEADER_START| && x[..|HEADER_START|] == HEADER_START
    ensures x != Fallback(source)
  {
    // Both start with "Failed to format"; the header goes on with " '", the
    // fallback with ":\n".
    var k := |HEADER_START| - 2;
    assert x[k] == ' ';
    assert Fallback(source)[k] == ':';
  }

  /** Without diagnostics the report is the header alone: the trailing newline
      of the header is trimmed away. */
  lemma {:induction false} RenderNoDiagnostics(subject: string, source: string)
    ensures Render(subject, source, []) == HEADER_START + subject + "'"
  {
    var x := HEADER_START + subject + "'";
    assert Header(subject) + "" == Text.Repeat('\n', 0) + x + Text.Repeat('\n', 1);
    Text.TrimAround(0, x, 1, '\n');
  }

  /** With diagnostics that all point into the source, trimming removes exactly
      the blank line after the last caret: the report is the header followed by
      every block in input order, minus the final two newlines. */
  lemma {:induction false} RenderReport(subject: string, source: string, ds: seq<Diagnostic>)
    requires |ds| > 0 && AllInRange(ds, Lines(source))
    ensures Blocks(ds, Lines(source)).Some?
    ensures Render(subject, source, ds) + "\n\n" == Header(subject) + Blocks(ds, Lines(source)).value
  {
    var body := Blocks(ds, Lines(source)).value;
    assert EndsWithCaret(body);
    var all := Header(subject) + body;
    assert all[0] == 'F';
    assert EndsWithCaret(all);
    assert Render(subject, source, ds) == Text.Trim(all, '\n');
    TrimCaretReport(all);
  }

  /** Trimming text that starts with `F` and ends with a caret and two
      newlines removes exactly those two newlines. */
  lemma TrimCaretReport(all: string)
    requires |all| >= 4 && all[0] == 'F' && EndsWithCaret(all)
    ensures Text.Trim(all, '\n') + "\n\n" == all
  {
    var x := all[..|all| - 2];
    assert all == Text.Repeat('\n', 0) + x + Text.Repeat('\n', 2);
    Text.TrimAround(0, x, 2, '\n');
  }

  /** One in-range diagnostic renders as header, message, the quoted source
      line and the caret line. */
  lemma {:induction false} RenderSingle(subject: string, source: string, d: Diagnostic)
    requires InRange(d, Lines(source))
    ensures Render(subject, source, [d])
      == HEADER_START + subject + "'\n" + d.message + "\n" + Lines(source)[d.line - 1] + "\n" + CaretLine(d.column)
  {
    var lines := Lines(source);
    var want := HEADER_START + subject + "'\n" + d.message + "\n" + lines[d.line - 1] + "\n" + CaretLine(d.column);
    SingleBlock(d, lines);
    assert AllInRange([d], lines);
    RenderReport(subject, source, [d]);
    assert Header(subject) + Block(d, lines) == want + "\n\n";
    DropTwoNewlines(Render(subject, source, [d]), want);
  }

  lemma SingleBlock(d: Diagnostic, lines: seq<string>)
    requires InRange(d, lines)
    ensures Blocks([d], lines) == Some(Block(d, lines))
  {
    assert [d][1..] == [];
    assert Block(d, lines) + "" == Block(d, lines);
  }

  lemma DropTwoNewlines(r: string, x: string)
    requires r + "\n\n" == x + "\n\n"
    ensures r == x
  {
    assert r == (r + "\n\n")[..|r|];
    assert x == (x + "\n\n")[..|x|];
  }

  /** Blocks of a concatenation are the concatenated blocks: diagnostics are
      rendered in input order, each one independently of the others. */
  lemma {:induction false} BlocksAppend(a: seq<Diagnostic>, b: seq<Diagnostic>, lines: seq<string>)
    requires AllInRange(a, lines) && AllInRange(b, lines)
    ensures AllInRange(a + b, lines)
    ensures Blocks(a + b, lines) == Some(Blocks(a, lines).value + Blocks(b, lines).value)
    decreases |a|
  {
    assert AllInRange(a + b, lines) by {
      forall i | 0 <= i < |a + b| ensures InRange((a + b)[i], lines) {
        if i < |a| { assert (a + b)[i] == a[i]; } else { assert (a + b)[i] == b[i - |a|]; }
      }
    }
    if |a| == 0 {
      assert a + b == b;
      assert "" + Blocks(b, lines).value == Blocks(b, lines).value;
    } else {
      assert (a + b)[0] == a[0] && (a + b)[1..] == a[1..] + b;
      assert AllInRange(a[1..], lines) by {
        forall i | 0 <= i < |a[1..]| ensures InRange(a[1..][i], lines) {
          assert a[1..][i] == a[i + 1];
        }
      }
      BlocksAppend(a[1..], b, lines);
      var x := Block(a[0], lines);
      var p := Blocks(a[1..], lines).value;
      var q := Blocks(b, lines).value;
      assert Blocks(a, lines).value == x + p;
      assert Blocks(a + b, lines).value == x + (p + q);
      Text.AppendAssoc(x, p, q);
    }
  }

  /** A diagnostic's line is usable exactly when it lies between 1 and the
      number of newlines in the source plus one. */
  lemma {:induction false} InRangeByNewlines(d: Diagnostic, source: string)
    ensures InRange(d, Lines(source)) <==> 1 <= d.line <= Text.Count(source, '\n') + 1
  {
    Text.SplitCount(source, '\n');
  }

  /** A report starts with the header line up to its closing quote, begins
      with `F` and ends with the caret or, without diagnostics, the quote. */
  lemma {:induction false} ReportShape(subject: string, source: string, ds: seq<Diagnostic>)
    requires AllInRange(ds, Lines(source))
    ensures var r := Render(subject, source, ds);
      var n := |HEADER_START| + |subject| + 1;
      |r| >= n && r[..n] == HEADER_START + subject + "'" && r[0] == 'F'
      && r[|r| - 1] == (if |ds| == 0 then '\'' else '^')
  {
    var h := HEADER_START + subject + "'";
    QuotedName(subject);
    if |ds| == 0 {
      RenderNoDiagnostics(subject, source);
    } else {
      ReportEndsWithCaret(subject, source, ds);
    }
  }

  /** The quoted name at the head of a report. */
  lemma QuotedName(subject: string)
    ensures var h := HEADER_START + subject + "'";
      h[0] == 'F' && h[|h| - 1] == '\''
  {
  }

  lemma {:induction false} ReportEndsWithCaret(subject: string, source: string, ds: seq<Diagnostic>)
    requires |ds| > 0 && AllInRange(ds, Lines(source))
    ensures var r := Render(subject, source, ds);
      var h := HEADER_START + subject + "'";
      |r| >= |h| && r[..|h|] == h && r[0] == 'F' && r[|r| - 1] == '^'
  {
    RenderReport(subject, source, ds);
    CaretReportShape(Render(subject, source, ds), subject, Blocks(ds, Lines(source)).value);
  }

  /** Text that becomes the header and a caret-ended body once two newlines
      are appended starts with the quoted name and ends with the caret. */
  lemma CaretReportShape(r: string, subject: string, body: string)
    requires EndsWithCaret(body) && r + "\n\n" == Header(subject) + body
    ensures var h := HEADER_START + subject + "'";
      |r| >= |h| && r[..|h|] == h && r[0] == 'F' && r[|r| - 1] == '^'
  {
    var h := HEADER_START + subject + "'";
    QuotedName(subject);
    HeaderSplit(subject, body);
    PrefixBeforeCaret(r, h, "\n" + body);
  }

  /** The header's newline moves onto a body that ends with a caret. */
  lemma HeaderSplit(subject: string, body: string)
    requires EndsWithCaret(body)
    ensures Header(subject) + body == (HEADER_START + subject + "'") + ("\n" + body)
    ensures EndsWithCaret("\n" + body)
  {
    var rest := "\n" + body;
    assert rest[|rest| - 3] == body[|body| - 3] && rest[|rest| - 2] == body[|body| - 2] && rest[|rest| - 1] == body[|body| - 1];
    var p := HEADER_START + subject;
    assert "'\n" == "'" + "\n";
    Text.AppendAssoc(p, "'", "\n");
    Text.AppendAssoc(p + "'", "\n", body);
  }

  lemma PrefixBeforeCaret(r: string, h: string, rest: string)
    requires |h| > 0 && EndsWithCaret(rest) && r + "\n\n" == h + rest
    ensures |r| >= |h| && r[..|h|] == h && r[0] == h[0] && r[|r| - 1] == '^'
  {
    var all := h + rest;
    assert all[|all| - 3] == '^';
    assert r == all[..|r|];
  }

  /** The fallback is returned exactly when some diagnostic's line lies outside
      the source; otherwise the result is a report. */
  lemma {:induction false} RenderFallbackIff(subject: string, source: string, ds: seq<Diagnostic>)
    ensures Render(subject, source, ds) == Fallback(source)
        <==> exists i :: 0 <= i < |ds| && (ds[i].line < 1 || ds[i].line > Text.Count(source, '\n') + 1)
  {
    Text.SplitCount(source, '\n');
    var lines := Lines(source);
    if AllInRange(ds, lines) {
      var r := Render(subject, source, ds);
      ReportShape(subject, source, ds);
      assert r[..|HEADER_START|] == (HEADER_START + subject + "'")[..|HEADER_START|];
      HeaderAndFallbackDiffer(subject, source, r);
      assert forall i :: 0 <= i < |ds| ==> InRange(ds[i], lines);
    } else {
      var i :| 0 <= i < |ds| && !InRange(ds[i], lines);
    }
  }

  /** `generateMessage` never fails: it returns either the fallback, or a
      report that begins with the header and neither begins nor ends with a
      newline. */
  lemma {:induction false} RenderShape(subject: string, source: string, ds: seq<Diagnostic>)
    ensures var r := Render(subject, source, ds);
      r == Fallback(source)
      || (|r| >= |HEADER_START| + |subject| + 1
          && r[..|HEADER_START| + |subject| + 1] == HEADER_START + subject + "'"
          && r[0] != '\n' && r[|r| - 1] != '\n')
  {
    if AllInRange(ds, Lines(source)) {
      ReportShape(subject, source, ds);
    }
  }
}

=== FILE: text.dfy ===
/** Character-sequence helpers with the semantics of the Guava and JDK string
    utilities the formatter facades call: `Splitter.on(c).split`,
    `CharMatcher.is(c).trimFrom` and `String.repeat`. `Join` is not called by
    the facades; it is the inverse `Split` is proved against. */
module Text {

  /** `n` copies of `c` (`String.valueOf(c).repeat(n)`). */
  function Repeat(c: char, n: nat): (r: string)
    ensures |r| == n
    ensures forall i :: 0 <= i < n ==> r[i] == c
  {
    if n == 0 then "" else [c] + Repeat(c, n - 1)
  }

  /** Number of occurrences of `c` in `s`. */
  function Count(s: string, c: char): nat {
    if |s| == 0 then 0 else (if s[0] == c then 1 else 0) + Count(s[1..], c)
  }

  /** `Splitter.on(sep).split(s)`: every separator ends a piece, empty pieces are
      kept, and the empty string yields one empty piece. */
  function Split(s: string, sep: char): (r: seq<string>)
    ensures |r| >= 1
    decreases |s|
  {
    if |s| == 0 then [""]
    else
      var rest := Split(s[1..], sep);
      if s[0] == sep then [""] + rest
      else [[s[0]] + rest[0]] + rest[1..]
  }

  /** Pieces glued back together with `sep` between neighbours. */
  function Join(pieces: seq<string>, sep: char): string {
    if |pieces| == 0 then ""
    else if |pieces| == 1 then pieces[0]
    else pieces[0] + [sep] + Join(pieces[1..], sep)
  }

  /** True when no piece contains `sep`. */
  predicate SeparatorFree(pieces: seq<string>, sep: char) {
    forall i :: 0 <= i < |pieces| ==> sep !in pieces[i]
  }

  /** `s` without its leading run of `c`. */
  function TrimStart(s: string, c: char): (r: string)
    ensures |r| <= |s| && s == Repeat(c, |s| - |r|) + r
    ensures |r| > 0 ==> r[0] != c
  {
    if |s| > 0 && s[0] == c then TrimStart(s[1..], c) else s
  }

  /** `s` without its trailing run of `c`. */
  function TrimEnd(s: string, c: char): (r: string)
    ensures |r| <= |s| && s == r + Repeat(c, |s| - |r|)
    ensures |r| > 0 ==> r[|r| - 1] != c
  {
    if |s| > 0 && s[|s| - 1] == c then TrimEnd(s[..|s| - 1], c) else s
  }

  /** `CharMatcher.is(c).trimFrom(s)`: both runs of `c` removed. */
  function Trim(s: string, c: char): (r: string)
    ensures |r| > 0 ==> r[0] != c && r[|r| - 1] != c
  {
    TrimEnd(TrimStart(s, c), c)
  }

  /** Trimming removes nothing but copies of `c`, and only at the two ends. */
  lemma TrimRemovesOnlyEnds(s: string, c: char)
    ensures exists a: nat, b: nat :: s == Repeat(c, a) + Trim(s, c) + Repeat(c, b)
  {
    var t := TrimStart(s, c);
    var r := TrimEnd(t, c);
    assert s == Repeat(c, |s| - |t|) + r + Repeat(c, |t| - |r|);
  }

  lemma AppendAssoc(x: string, y: string, z: string)
    ensures x + (y + z) == (x + y) + z
  {
  }

  /** Six-part concatenation, regrouped from the right to the left. */
  lemma AppendAssoc6(a: string, b: string, c: string, d: string, e: string, f: string)
    ensures a + (b + (c + (d + (e + (f + ""))))) == a + b + c + d + e + f
  {
  }

  // ---------------------------------------------------------------------
  // Split and Join are inverse to each other.

  lemma {:induction false} JoinStep(pieces: seq<string>, sep: char)
    requires |pieces| >= 1
    ensures |pieces| == 1 ==> Join(pieces, sep) == pieces[0]
    ensures |pieces| >= 2 ==> Join(pieces, sep) == pieces[0] + [sep] + Join(pieces[1..], sep)
  {
  }

  /** Appending a piece appends the separator and the piece. */
  lemma {:induction false} JoinAppend(pieces: seq<string>, last: string, sep: char)
    requires |pieces| >= 1
    ensures Join(pieces + [last], sep) == Join(pieces, sep) + [sep] + last
    decreases |pieces|
  {
    var all := pieces + [last];
    assert all[0] == pieces[0] && all[1..] == pieces[1..] + [last];
    if |pieces| == 1 {
      assert all[1..] == [last];
    } else {
      JoinAppend(pieces[1..], last, sep);
      AppendAssoc(pieces[0] + [sep], Join(pieces[1..], sep), [sep] + last);
    }
  }

  /** Joining the pieces of a split gives back the original text. */
  lemma {:induction false} JoinSplit(s: string, sep: char)
    ensures Join(Split(s, sep), sep) == s
    decreases |s|
  {
    if |s| > 0 {
      var rest := Split(s[1..], sep);
      JoinSplit(s[1..], sep);
      if s[0] == sep {
        assert Split(s, sep) == [""] + rest;
        JoinStep([""] + rest, sep);
        assert ([""] + rest)[1..] == rest;
        assert s == [sep] + s[1..];
      } else {
        var r := Split(s, sep);
        assert r == [[s[0]] + rest[0]] + rest[1..];
        assert r[1..] == rest[1..];
        if |rest| == 1 {
          assert Join(rest, sep) == rest[0];
        } else {
          JoinStep(rest, sep);
        }
        assert s == [s[0]] + s[1..];
      }
    }
  }

  /** No piece of a split contains the separator. */
  lemma {:induction false} SplitSeparatorFree(s: string, sep: char)
    ensures SeparatorFree(Split(s, sep), sep)
    decreases |s|
  {
    if |s| > 0 {
      var rest := Split(s[1..], sep);
      SplitSeparatorFree(s[1..], sep);
      var r := Split(s, sep);
      if s[0] != sep {
        assert r == [[s[0]] + rest[0]] + rest[1..];
        forall i | 0 <= i < |r|
          ensures sep !in r[i]
        {
          if i == 0 {
            assert sep !in rest[0];
          } else {
            assert r[i] == rest[i];
          }
        }
      } else {
        assert r == [""] + rest;
        forall i | 0 <= i < |r|
          ensures sep !in r[i]
        {
          if i > 0 {
            assert r[i] == rest[i - 1];
          }
        }
      }
    }
  }

  /** A split has one more piece than the text has separators. */
  lemma {:induction false} SplitCount(s: string, sep: char)
    ensures |Split(s, sep)| == Count(s, sep) + 1
    decreases |s|
  {
    if |s| > 0 {
      SplitCount(s[1..], sep);
    }
  }

  /** Splitting a separator-free prefix followed by more text. */
  lemma {:induction false} SplitPrefix(x: string, tail: string, sep: char)
    requires sep !in x
    ensures Split(x + tail, sep) == [x + Split(tail, sep)[0]] + Split(tail, sep)[1..]
    decreases |x|
  {
    if |x| > 0 {
      var s := x + tail;
      assert s[0] == x[0] && s[1..] == x[1..] + tail;
      SplitPrefix(x[1..], tail, sep);
      var t := Split(tail, sep);
      var rest := Split(x[1..] + tail, sep);
      assert rest == [x[1..] + t[0]] + t[1..];
      assert rest[0] == x[1..] + t[0] && rest[1..] == t[1..];
      assert x[0] != sep;
      assert Split(s, sep) == [[x[0]] + rest[0]] + rest[1..];
      assert [x[0]] + (x[1..] + t[0]) == x + t[0];
    } else {
      var r := Split(tail, sep);
      assert x + tail == tail;
      assert x + r[0] == r[0];
      assert [r[0]] + r[1..] == r;
    }
  }

  /** Splitting joined separator-free pieces recovers the pieces. */
  lemma {:induction false} SplitJoin(pieces: seq<string>, sep: char)
    requires |pieces| >= 1 && SeparatorFree(pieces, sep)
    ensures Split(Join(pieces, sep), sep) == pieces
    decreases |pieces|
  {
    assert sep !in pieces[0];
    if |pieces| == 1 {
      SplitPrefix(pieces[0], "", sep);
      assert pieces[0] + "" == pieces[0];
    } else {
      var rest := pieces[1..];
      assert SeparatorFree(rest, sep) by {
        forall i | 0 <= i < |rest| ensures sep !in rest[i] {
          assert rest[i] == pieces[i + 1];
        }
      }
      SplitJoin(rest, sep);
      var tail := [sep] + Join(rest, sep);
      assert Join(pieces, sep) == pieces[0] + tail;
      SplitPrefix(pieces[0], tail, sep);
      assert tail[0] == sep && tail[1..] == Join(rest, sep);
      var st := Split(tail, sep);
      assert st == [""] + rest;
      assert st[0] == "" && st[1..] == rest;
      assert pieces[0] + "" == pieces[0];
      assert Split(Join(pieces, sep), sep) == [pieces[0]] + rest;
      assert pieces == [pieces[0]] + rest;
    }
  }

  // ---------------------------------------------------------------------
  // Trimming.

  lemma {:induction false} TrimStartLeading(a: nat, y: string, c: char)
    ensures TrimStart(Repeat(c, a) + y, c) == TrimStart(y, c)
    decreases a
  {
    if a > 0 {
      var s := Repeat(c, a) + y;
      assert s[0] == c;
      assert s[1..] == Repeat(c, a - 1) + y;
      TrimStartLeading(a - 1, y, c);
    } else {
      assert Repeat(c, 0) + y == y;
    }
  }

  lemma {:induction false} TrimEndTrailing(y: string, b: nat, c: char)
    ensures TrimEnd(y + Repeat(c, b), c) == TrimEnd(y, c)
    decreases b
  {
    if b > 0 {
      var s := y + Repeat(c, b);
      assert s[|s| - 1] == c;
      assert s[..|s| - 1] == y + Repeat(c, b - 1);
      TrimEndTrailing(y, b - 1, c);
    } else {
      assert y + Repeat(c, 0) == y;
    }
  }

  /** Trimming removes exactly the runs of `c` around a core that neither
      starts nor ends with `c`. */
  lemma {:induction false} TrimAround(a: nat, x: string, b: nat, c: char)
    requires |x| > 0 && x[0] != c && x[|x| - 1] != c
    ensures Trim(Repeat(c, a) + x + Repeat(c, b), c) == x
  {
    var y := x + Repeat(c, b);
    var s := Repeat(c, a) + x + Repeat(c, b);
    assert s == Repeat(c, a) + y;
    TrimStartLeading(a, y, c);
    assert y[0] == x[0];
    assert TrimStart(y, c) == y;
    TrimEndTrailing(x, b, c);
    assert x[|x| - 1] != c;
    assert TrimEnd(x, c) == x;
    assert Trim(s, c) == TrimEnd(TrimStart(s, c), c);
  }
}

=== FILE: utf8.dfy ===
/** UTF-8 as the facades use it: `String.getBytes(UTF_8)` (Encode) and
    `new String(bytes, UTF_8)` (Decode). Characters are Unicode scalar values.
    Decode never fails: each maximal ill-formed subpart becomes one U+FFFD
    (section 3.9 of the Unicode Standard, "U+FFFD Substitution of Maximal Subparts"). */
module Utf8 {

  newtype byte = x: int | 0 <= x < 256

  const REPLACEMENT: char := '\U{FFFD}'

  /** The UTF-8 byte sequence of one scalar value. */
  function EncodeChar(c: char): (r: seq<byte>)
    ensures 1 <= |r| <= 4
    ensures (c as int < 0x80) == (|r| == 1)
    ensures c as int < 0x80 ==> r[0] as int == c as int
  {
    var n := c as int;
    if n < 0x80 then [n as byte]
    else if n < 0x800 then [(0xC0 + n / 0x40) as byte, (0x80 + n % 0x40) as byte]
    else if n < 0x10000 then
      [(0xE0 + n / 0x1000) as byte, (0x80 + (n / 0x40) % 0x40) as byte, (0x80 + n % 0x40) as byte]
    else
      [(0xF0 + n / 0x40000) as byte, (0x80 + (n / 0x1000) % 0x40) as byte,
       (0x80 + (n / 0x40) % 0x40) as byte, (0x80 + n % 0x40) as byte]
  }

  /** `s.getBytes(UTF_8)`. */
  function Encode(s: string): seq<byte> {
    if |s| == 0 then [] else EncodeChar(s[0]) + Encode(s[1..])
  }

  predicate IsContinuation(b: byte) {
    0x80 <= b <= 0xBF
  }

  /** Lowest and highest second byte a well-formed sequence allows after `lead`
      (Table 3-7 of the Unicode Standard). */
  function SecondLow(lead: byte): byte {
    if lead == 0xE0 then 0xA0 else if lead == 0xF0 then 0x90 else 0x80
  }

  function SecondHigh(lead: byte): byte {
    if lead == 0xED then 0x9F else if lead == 0xF4 then 0x8F else 0xBF
  }

  predicate SecondOk(lead: byte, b: byte) {
    SecondLow(lead) <= b <= SecondHigh(lead)
  }

  /** Decodes the character at the front of `b`: the character and the number
      of bytes it used. */
  function Step(b: seq<byte>): (r: (char, nat))
    requires |b| > 0
    ensures 1 <= r.1 <= |b| && r.1 <= 4
  {
    var b0 := b[0];
    if b0 < 0x80 then (b0 as int as char, 1)
    else if 0xC2 <= b0 <= 0xDF then
      if |b| >= 2 && IsContinuation(b[1]) then
        (((b0 as int - 0xC0) * 0x40 + (b[1] as int - 0x80)) as char, 2)
      else (REPLACEMENT, 1)
    else if 0xE0 <= b0 <= 0xEF then
      if |b| >= 2 && SecondOk(b0, b[1]) then
        if |b| >= 3 && IsContinuation(b[2]) then
          (((b0 as int - 0xE0) * 0x1000 + (b[1] as int - 0x80) * 0x40 + (b[2] as int - 0x80)) as char, 3)
        else (REPLACEMENT, 2)
      else (REPLACEMENT, 1)
    else if 0xF0 <= b0 <= 0xF4 then
      if |b| >= 2 && SecondOk(b0, b[1]) then
        if |b| >= 3 && IsContinuation(b[2]) then
          if |b| >= 4 && IsContinuation(b[3]) then
            (((b0 as int - 0xF0) * 0x40000 + (b[1] as int - 0x80) * 0x1000
              + (b[2] as int - 0x80) * 0x40 + (b[3] as int - 0x80)) as char, 4)
          else (REPLACEMENT, 3)
        else (REPLACEMENT, 2)
      else (REPLACEMENT, 1)
    else (REPLACEMENT, 1)
  }

  /** `new String(b, UTF_8)`. */
  function Decode(b: seq<byte>): string
    decreases |b|
  {
    if |b| == 0 then ""
    else
      var (c, k) := Step(b);
      [c] + Decode(b[k..])
  }

  // ---------------------------------------------------------------------
  // Decoding undoes encoding.

  lemma Split64(n: int)
    requires n >= 0
    ensures n == (n / 0x40) * 0x40 + n % 0x40
    ensures 0 <= n % 0x40 < 0x40
  {
  }

  /** The decoder reads back exactly one encoded character, whatever follows. */
  lemma StepEncodeChar(c: char, rest: seq<byte>)
    ensures Step(EncodeChar(c) + rest) == (c, |EncodeChar(c)|)
  {
    var n := c as int;
    var e := EncodeChar(c);
    var b := e + rest;
    assert b[..|e|] == e;
    if n < 0x80 {
    } else if n < 0x800 {
      Split64(n);
      assert b[0] as int == 0xC0 + n / 0x40 && b[1] as int == 0x80 + n % 0x40;
    } else if n < 0x10000 {
      var q := n / 0x40;
      Split64(n);
      Split64(q);
      assert b[0] as int == 0xE0 + q / 0x40;
      assert b[1] as int == 0x80 + q % 0x40;
      assert b[2] as int == 0x80 + n % 0x40;
      assert n == (q / 0x40) * 0x1000 + (q % 0x40) * 0x40 + n % 0x40;
    } else {
      var q := n / 0x40;
      var q2 := q / 0x40;
      Split64(n);
      Split64(q);
      Split64(q2);
      assert n / 0x1000 == q2;
      assert n / 0x40000 == q2 / 0x40;
      assert b[0] as int == 0xF0 + q2 / 0x40;
      assert b[1] as int == 0x80 + q2 % 0x40;
      assert b[2] as int == 0x80 + q % 0x40;
      assert b[3] as int == 0x80 + n % 0x40;
      assert n == (q2 / 0x40) * 0x40000 + (q2 % 0x40) * 0x1000 + (q % 0x40) * 0x40 + n % 0x40;
    }
  }

  /** Encoding distributes over concatenation. */
  lemma {:induction false} EncodeAppend(s: string, t: string)
    ensures Encode(s + t) == Encode(s) + Encode(t)
    decreases |s|
  {
    if |s| == 0 {
      assert s + t == t;
    } else {
      assert (s + t)[0] == s[0] && (s + t)[1..] == s[1..] + t;
      EncodeAppend(s[1..], t);
    }
  }

  /** Round trip: the bytes `getBytes(UTF_8)` produces decode to the same text. */
  lemma {:induction false} DecodeEncode(s: string)
    ensures Decode(Encode(s)) == s
    decreases |s|
  {
    if |s| > 0 {
      var e := EncodeChar(s[0]);
      var b := Encode(s);
      assert b == e + Encode(s[1..]);
      StepEncodeChar(s[0], Encode(s[1..]));
      assert b[|e|..] == Encode(s[1..]);
      DecodeEncode(s[1..]);
      assert s == [s[0]] + s[1..];
    }
  }

  // ---------------------------------------------------------------------
  // An ASCII byte always starts a new character.

  /** A decoding step never reaches past the end of `a` into text that starts
      with an ASCII byte, and decides as it would at the end of input. */
  lemma StepBeforeAscii(a: seq<byte>, b: seq<byte>)
    requires |a| > 0 && |b| > 0 && b[0] < 0x80
    ensures Step(a + b) == Step(a)
  {
    var x := a + b;
    assert x[0] == a[0];
    assert forall i :: 0 <= i < |a| ==> x[i] == a[i];
    assert |a| < |x| ==> x[|a|] == b[0];
  }

  /** Decoding text followed by ASCII-led text decodes the two separately. */
  lemma {:induction false} DecodeAppendAscii(a: seq<byte>, b: seq<byte>)
    requires |b| > 0 && b[0] < 0x80
    ensures Decode(a + b) == Decode(a) + Decode(b)
    decreases |a|
  {
    if |a| == 0 {
      assert a + b == b;
    } else {
      StepBeforeAscii(a, b);
      var (c, k) := Step(a);
      assert (a + b)[k..] == a[k..] + b;
      DecodeAppendAscii(a[k..], b);
    }
  }

  /** Bytes already read followed by the encoding of a message that starts with
      an ASCII character decode to the decoded bytes followed by the message. */
  lemma DecodeThenMessage(read: seq<byte>, message: string)
    requires |message| > 0 && message[0] as int < 0x80
    ensures Decode(read + Encode(message)) == Decode(read) + message
  {
    var e := Encode(message);
    assert e == EncodeChar(message[0]) + Encode(message[1..]);
    assert e[0] as int == message[0] as int;
    DecodeAppendAscii(read, e);
    DecodeEncode(message);
  }
}

=== FILE: wrappers.dfy ===
/** Failure-carrying results and the exceptions the formatter facades raise. */
module Wrappers {

  datatype Option<+T> = None | Some(value: T)

  datatype Result<+R, +E> = Success(value: R) | Failure(error: E)

  /** The two exception kinds a caller of the formatter can observe.
      `cause` is the rendered text of the wrapped exception, when there is one. */
  datatype Failure =
    | GoetheException(message: string, cause: Option<string>)
    | IllegalArgument(message: string)
  {
    function Message(): string {
      match this
      case GoetheException(m, _) => m
      case IllegalArgument(m) => m
    }
  }
}
